=== FILE: README.md ===
# River value encoding, source positions and `concat`, in Dafny

This project models three pieces of the River configuration language of
Grafana Agent.

- **The Go-to-cty encoder** (`pkg/river/vm/internal/ctyencode/encode.go`).
  `Encode` walks a reflected Go value against a target cty type. It either
  builds a cty value of that type, or stops at the first failure with an
  error that records the cty path where it happened.
  - Pointers and interfaces are followed until the first nil. A nil
    anywhere gives the null of the target type.
  - A value whose static type is `cty.Value` goes to `convert.Convert`
    before any dispatch on the target type.
  - Lists, tuples and object attributes push an index or attribute step
    onto the path. Map entries push a key step. Set members push nothing.
  - A capsule needs an addressable source value.
- **Source positions** (`pkg/river/token/file.go`).
  - A `Pos` is a file and a byte offset.
  - A `File` records the offsets at which lines start.
  - `PositionFor` turns an offset into line and column by binary search.
  - `Position.String` renders a position as `file:line:column` or one of
    its shorter forms.
- **`concat`** from the River standard library
  (`pkg/river/vm/internal/stdlib/stdlib.go`). It appends any number of
  arrays to a nil accumulator.

Files:

- `wrappers.dfy`: `Option` and `Result`.
- `values.dfy`: reflected Go values (`Native`), cty types (`Ty`), cty values
  (`TVal`), and the conformance relation `Conforms` between a value and a
  type.
- `unwrap.dfy`: `unwrapPointer`. There is a reference definition
  (`Unwrapped`) and the loop (`UnwrapPointer`).
- `encode.dfy`: the encoder.
  - It has one function per handler of the source.
  - It is mutually recursive through `EncodeAt`.
  - It is parameterised by an `Env` that supplies `convert.Convert` and
    reflect's assignability test.
- `encode_properties.dfy`: what the encoder promises, stated per handler and
  connected back to `EncodeAt` through the unwrapping lemmas. It also has
  worked examples.
- `token.dfy`: `Pos`, `File`, `Position`, the line search and the rendering.
  The rendering is proved invertible.
- `stdlib.dfy`: `concat`, with `Flatten` as its reference definition.

Modelling choices:

- **Addressability.** Reflect's addressability is derived, not stored:
  - the value given to `Encode` is not addressable;
  - what a pointer points to is addressable;
  - what an interface holds is not;
  - slice elements are addressable;
  - array elements and struct fields inherit from their container;
  - map values and the values of a `set.Set` are not addressable.
- **Special structs.** `big.Int`, `big.Float`, cty's `set.Set` and
  `cty.Value` are Go structs. They are modelled as `GoStruct` with a
  `special` marker, so that the object and tuple handlers still see them as
  structs.
- **Read-only values.** Reflect marks a value read through an unexported
  struct field as read-only. The encoder may inspect such a value but
  `Interface()` refuses to hand it out. The model threads reflect's flag
  (`ReadOnly`, in `unwrap.dfy`) next to addressability, in its three states:
  - `StickyRO`: set by an unexported ordinary field, and kept by every
    later step;
  - `EmbedRO`: set by an unexported embedded field (`struct{ inner }`).
    Dereferencing a pointer keeps it. Indexing, a map lookup or unwrapping
    an interface turns it into `StickyRO`. The next field access drops it,
    so the exported fields of an unexported embedded struct can be handed
    out (`EncodeProperties.ExampleNestedUnexportedField`);
  - `Writable`: the value given to `Encode`, and the values of a `set.Set`,
    which are reflected afresh.
- **Panics.** The source panics in three places on inputs that its checks
  let through. The model returns them as a `Panicked` cause, so that its
  contracts can say exactly when each happens:
  - `Interface()` on a read-only value (encode.go lines 108, 114, 272, 488,
    491, 506, 520);
  - a map lookup with a plain `string` key on a map whose key type is a
    defined string type such as `type K string` (lines 220 and 338);
  - a NaN float, which cty refuses as a number (line 104).
- **Map order.** Go iterates maps in an unspecified order. The encoder's
  map and object loops take their next key from `Pick`, a fixed but
  unspecified choice. That is why those functions are ghost.

The code decides nil and empty maps before it looks at the key kind. So an
empty map with integer keys encodes to the empty map under a map target,
while an object target rejects it (`EncodeProperties.NonStringKeys`).

## Model

| member | source | states |
|---|---|---|
| CtyEncode.Encode | pkg/river/vm/internal/ctyencode/encode.go:27-34 | The result conforms to the requested type ("the result will conform to the given type, or an error will be returned"), assuming `convert.Convert` only returns values of the type it was asked for |
| CtyEncode.EncodeAt | pkg/river/vm/internal/ctyencode/encode.go:36-71 | Every error is raised at the caller's path or below it; every success conforms to the target type |
| CtyEncode.EncodeIndirect | pkg/river/vm/internal/ctyencode/encode.go:36-43 | The unwrapping prologue: a nil anywhere on the indirection chain gives the null of the target type; every error is raised at the caller's path or below it, and every success conforms to the target type |
| CtyEncode.Dispatch | pkg/river/vm/internal/ctyencode/encode.go:43-67 | Whichever handler the target type selects, every error is raised at the caller's path or below it and every success conforms to the target type |
| CtyEncode.Passthrough | pkg/river/vm/internal/ctyencode/encode.go:515-527 | Succeeds exactly when the conversion succeeds; a rejected conversion is an "unsuitable value" error at the current path |
| CtyEncode.EncodeBool | pkg/river/vm/internal/ctyencode/encode.go:73-88 | A Go bool, and only a Go bool, becomes the cty bool of the same truth value; anything else is the kind-mismatch error at the current path |
| CtyEncode.EncodeNumber | pkg/river/vm/internal/ctyencode/encode.go:90-124 | Signed and unsigned integers and big.Int values become the exact number of the same value; floats and big.Float values keep their representation; a NaN panics, and so does a big.Int or big.Float reached through an unexported field; every other kind is the kind-mismatch error at the current path |
| CtyEncode.EncodeString | pkg/river/vm/internal/ctyencode/encode.go:126-141 | A Go string, and only a Go string, becomes the cty string of the same characters (no Unicode normalisation, see "Left out"); anything else is the kind-mismatch error at the current path |
| CtyEncode.EncodeDynamic | pkg/river/vm/internal/ctyencode/encode.go:494-513 | Succeeds exactly for a cty.Value struct that is not read-only, returning it unconverted; a read-only one panics in `Interface()`; anything else is the "only cty.Value allowed" error naming its kind |
| CtyEncode.EncodeCapsule | pkg/river/vm/internal/ctyencode/encode.go:474-492 | Succeeds exactly when the value is addressable, not read-only, and of a type assignable to the encapsulated type, giving a capsule of the requested type around the value; otherwise, in this order: the "must be addressable" error, a panic in `Interface()`, or the mismatch error naming the capsule type and the value |
| CtyEncode.EncodeList | pkg/river/vm/internal/ctyencode/encode.go:143-186 | A nil slice is the null list; a success from a slice or array is a list of the element type with one value per element; any other kind is the kind-mismatch error; errors never escape above the caller's path |
| CtyEncode.EncodeItems | pkg/river/vm/internal/ctyencode/encode.go:160-178 | Produces exactly one value per remaining element, each of the element type |
| CtyEncode.EncodeMap | pkg/river/vm/internal/ctyencode/encode.go:188-236 | A nil map is the null map; any other kind than map is the kind-mismatch error; a success is a map of the element type; errors never escape above the caller's path |
| CtyEncode.EncodeEntries | pkg/river/vm/internal/ctyencode/encode.go:209-228 | The result has exactly the visited keys, each value of the element type |
| CtyEncode.EncodeSet | pkg/river/vm/internal/ctyencode/encode.go:238-294 | A nil slice is the null set; a read-only set.Set panics in `Interface()`; a kind other than slice, array or set.Set is the kind-mismatch error; a success is a set of the element type |
| CtyEncode.EncodeMembers | pkg/river/vm/internal/ctyencode/encode.go:257-286 | Produces exactly one value per remaining member, each of the element type |
| CtyEncode.EncodeObject | pkg/river/vm/internal/ctyencode/encode.go:296-388 | A nil map is the null object; a kind other than map or struct is the kind-mismatch error; a success is an object with exactly the declared attributes, each of its declared type |
| CtyEncode.EncodeAttrs | pkg/river/vm/internal/ctyencode/encode.go:326-376 | The result has exactly the visited attribute names, each of its declared type |
| CtyEncode.EncodeAttr | pkg/river/vm/internal/ctyencode/encode.go:327-375 | An attribute without a source is the null of its type; an attribute value conforms to its declared type; its errors stay below the caller's path |
| CtyEncode.EncodeTuple | pkg/river/vm/internal/ctyencode/encode.go:390-472 | A nil slice is the null tuple; a kind other than slice or struct, an array included, is the kind-mismatch error; a success is a tuple whose items match the element types position by position |
| CtyEncode.EncodeTupleItems | pkg/river/vm/internal/ctyencode/encode.go:414-466 | Produces one value per remaining position, each of that position's type |
| Unwrap.Unwrapped | pkg/river/vm/internal/ctyencode/encode.go:529-549 | The result is absent exactly when a nil sits on the chain; otherwise it is neither a pointer nor an interface, and a direct value is returned as is; the value reached is addressable exactly when the last indirection was a pointer, not an interface, and keeps the incoming flag when there was none; its read-only flag is the incoming one, made sticky when an interface sits on the chain |
| Unwrap.UnwrapPointer | pkg/river/vm/internal/ctyencode/encode.go:539-549 | The loop takes at most as many steps as there are indirections, stops at the first nil, and agrees with `Unwrapped` |
| EncodeProperties.UnwrapThenDispatch | pkg/river/vm/internal/ctyencode/encode.go:36-71 | Following indirections one at a time is the same as unwrapping once and then running the handler for the target type |
| EncodeProperties.AtReached | pkg/river/vm/internal/ctyencode/encode.go:36-71 | A value that is not a cty.Value is handled as the value unwrapping reaches, with the addressability and read-only flag unwrapping gave it |
| EncodeProperties.NullPropagation | pkg/river/vm/internal/ctyencode/encode.go:74-76 | A nil anywhere on the indirection chain gives the null of the target type, for every target type, never an error |
| EncodeProperties.EncodeNilIsNull | pkg/river/vm/internal/ctyencode/encode.go:27-34 | At the entry point a nil chain encodes to the typed null |
| EncodeProperties.PassthroughFirst | pkg/river/vm/internal/ctyencode/encode.go:36-41 | A cty.Value is converted before any dispatch on the target type; a failed conversion is an "unsuitable value" error at the current path; one reached through an unexported field panics in `Interface()` |
| EncodeProperties.PointerToCtyValue | pkg/river/vm/internal/ctyencode/encode.go:494-506 | A pointer to a cty.Value is not passed through: the dynamic target returns it unconverted, and a bool target rejects it as a struct |
| EncodeProperties.ScalarAcceptance | pkg/river/vm/internal/ctyencode/encode.go:73-141 | Bool, number and string targets accept exactly a nil chain or the matching Go kinds, the number target except where it panics |
| EncodeProperties.ScalarValues | pkg/river/vm/internal/ctyencode/encode.go:73-141 | Behind any indirections: a bool carries over unchanged and a string keeps its characters (no Unicode normalisation); integers and big.Int values become the exact number; floats and big.Float values keep their representation; a NaN panics, and a read-only big.Int or big.Float panics |
| EncodeProperties.ScalarRejection | pkg/river/vm/internal/ctyencode/encode.go:73-141 | A scalar failure names the Go kind reached and the requested type, at the current path, unless it is the number handler's NaN or read-only panic |
| EncodeProperties.DynamicAcceptance | pkg/river/vm/internal/ctyencode/encode.go:494-513 | The dynamic target accepts exactly a nil chain or a cty.Value that is not read-only, which it returns unconverted; a read-only cty.Value panics; any other kind is the "only cty.Value allowed" error |
| EncodeProperties.CapsuleRule | pkg/river/vm/internal/ctyencode/encode.go:474-492 | Behind any indirections: a capsule needs an addressable, assignable value that is not read-only; the three ways to fail are the "must be addressable" error, the `Interface()` panic, and the mismatch error naming the capsule type and the value; success wraps the reached value |
| EncodeProperties.CapsuleNeedsPointer | pkg/river/vm/internal/ctyencode/encode.go:479-485 | At the entry point a capsule payload passed by value is always rejected, and passed by pointer it is accepted exactly when assignable |
| EncodeProperties.CapsuleBehindInterface | pkg/river/vm/internal/ctyencode/encode.go:479-485 | A value whose last indirection is an interface is not addressable, so a capsule target rejects it with the not-addressable error, whatever led to the interface |
| EncodeProperties.ExampleCapsuleInInterfaceSlice | pkg/river/vm/internal/ctyencode/encode.go:143-186 | A slice of interfaces holding a struct, against a list of capsules, fails with the not-addressable error at index 0 |
| EncodeProperties.ItemsInOrder | pkg/river/vm/internal/ctyencode/encode.go:162-174 | The element loop keeps order: it succeeds exactly when every element does, and value `j` of its result is the encoding of element `j` |
| EncodeProperties.ItemsFirstFailure | pkg/river/vm/internal/ctyencode/encode.go:162-174 | A failing element loop reports the error of its first failing element: every element before it encodes |
| EncodeProperties.ListNullVersusEmpty | pkg/river/vm/internal/ctyencode/encode.go:144-158 | Behind any indirections, a nil slice is the null list, while a non-nil empty slice or an empty array is the empty list |
| EncodeProperties.ListRejects | pkg/river/vm/internal/ctyencode/encode.go:182-183 | Behind any indirections, any kind other than slice or array is the kind-mismatch error naming that kind and the list type |
| EncodeProperties.ListHandler | pkg/river/vm/internal/ctyencode/encode.go:143-186 | A non-empty slice or array becomes a list of the same length and order, or fails with the first failing element's error under its index |
| EncodeProperties.EntriesIndependent | pkg/river/vm/internal/ctyencode/encode.go:209-224 | Every key is encoded on its own under its key step; the loop succeeds exactly when every key does; a failure is some key's failure |
| EncodeProperties.ExampleDefinedStringKey | pkg/river/vm/internal/ctyencode/encode.go:204-223 | A non-empty map keyed by a type defined on top of string passes the key-kind check and then panics on the lookup with a plain string key, at the map's own path |
| EncodeProperties.MapHandler | pkg/river/vm/internal/ctyencode/encode.go:188-236 | Nil is null and empty is the empty map, both decided before the key kind; non-string keys are rejected; a defined string key type panics on the first lookup with a plain string; otherwise the result is keyed by the Go map's keys as given, each holding the encoding of that key's value, and a failure is some key's failure |
| EncodeProperties.MapRejects | pkg/river/vm/internal/ctyencode/encode.go:232-233 | Behind any indirections, any kind other than map is the kind-mismatch error naming that kind and the map type |
| EncodeProperties.NonStringKeys | pkg/river/vm/internal/ctyencode/encode.go:200-207 | A non-string key type is rejected by the object handler always, and by the map handler only when the map is non-empty |
| EncodeProperties.MembersInOrder | pkg/river/vm/internal/ctyencode/encode.go:257-264 | The member loop succeeds exactly when every member does, encoded at the caller's path, and value `j` of its result is member `j`'s encoding |
| EncodeProperties.MembersFirstFailure | pkg/river/vm/internal/ctyencode/encode.go:257-264 | A failing member loop reports the error of its first failing member, unchanged, with every member before it encoding |
| EncodeProperties.SetHandler | pkg/river/vm/internal/ctyencode/encode.go:238-294 | A read-only set.Set panics; otherwise the set holds exactly the encoded members, identical values merged, and a failure is a member's failure raised at the caller's path, without an index step |
| EncodeProperties.SetNullVersusEmpty | pkg/river/vm/internal/ctyencode/encode.go:239-255 | Behind any indirections, a nil slice is the null set, while an empty slice, array or readable set.Set is the empty set |
| EncodeProperties.SetRejects | pkg/river/vm/internal/ctyencode/encode.go:266-290 | Behind any indirections, a struct that is not a set.Set, and any kind other than slice or array, is the kind-mismatch error |
| EncodeProperties.AttrsIndependent | pkg/river/vm/internal/ctyencode/encode.go:326-376 | Every declared attribute is encoded on its own; the loop succeeds exactly when every attribute does |
| EncodeProperties.ObjectHandler | pkg/river/vm/internal/ctyencode/encode.go:296-388 | The result has exactly the declared attributes; one without a source is the null of its type and never causes a failure; one with a source is encoded under its attribute step from the map value under its name (a panic when the key type is a defined string type) or from the resolved struct field, with reflect's read-only flag for it: sticky for an unexported ordinary field or below a sticky flag, embed-only for an unexported embedded field, cleared otherwise |
| EncodeProperties.ObjectShortcuts | pkg/river/vm/internal/ctyencode/encode.go:303-353 | For a map, nil and the key check come before the zero-attribute shortcut; a struct goes straight to the shortcut |
| EncodeProperties.ObjectRejects | pkg/river/vm/internal/ctyencode/encode.go:384-385 | Behind any indirections, any kind other than map or struct is the kind-mismatch error naming that kind and the object type |
| EncodeProperties.ExampleUnexportedCtyValue | pkg/river/vm/internal/ctyencode/encode.go:367-369 | A pointer to a struct whose unexported field holds a cty.Value, tagged as the only attribute of the target object type, panics in `Interface()` under that attribute's step |
| EncodeProperties.TupleItemsInOrder | pkg/river/vm/internal/ctyencode/encode.go:414-426 | Tuple items are encoded by position against their own types: the loop succeeds exactly when every position does, with each value in place |
| EncodeProperties.TupleItemsFirstFailure | pkg/river/vm/internal/ctyencode/encode.go:414-426 | A failing tuple loop reports the error of its first failing position: every position before it encodes |
| EncodeProperties.ExampleUnexportedTupleField | pkg/river/vm/internal/ctyencode/encode.go:455-460 | A struct whose only field is an unexported cty.Value, against a one-item tuple type, panics in `Interface()` at index 0: the tuple handler reads fields by position, unexported ones included |
| EncodeProperties.ExampleNestedUnexportedField | pkg/river/vm/internal/ctyencode/encode.go:448-460 | A struct whose only, unexported field holds (directly or through a pointer) a struct with one exported cty.Value field, against a tuple of a one-string tuple: when the field is embedded the cty.Value is converted and the result is the tuple of the tuple of the converted string, or the unsuitable-value error at index [0, 0]; when it is an ordinary field the encoder panics in `Interface()` at [0, 0] |
| EncodeProperties.TupleHandler | pkg/river/vm/internal/ctyencode/encode.go:390-472 | The arity error, with both counts, is raised exactly when the counts differ; otherwise the items map position by position; a slice element keeps the slice's read-only flag as a sticky one, and a struct field gets reflect's field flag: sticky for an unexported ordinary field or below a sticky flag, embed-only for an unexported embedded field, cleared otherwise |
| EncodeProperties.TupleRejects | pkg/river/vm/internal/ctyencode/encode.go:390-472 | Behind any indirections, a nil slice is the null tuple, and any kind other than slice or struct, an array included, is the kind-mismatch error |
| EncodeProperties.ExampleListOfNumbers | pkg/river/vm/internal/ctyencode/encode.go:143-180 | `[]int{1,2,3}` against list(number) gives the list 1, 2, 3 |
| EncodeProperties.ExampleObjectPresentAttribute | pkg/river/vm/internal/ctyencode/encode.go:333-338 | An attribute present in a map with string values encodes to that string |
| EncodeProperties.ExampleObjectHandler | pkg/river/vm/internal/ctyencode/encode.go:326-348 | The object handler on a map holding only attribute `a` gives `a` its string and the missing attribute `b` a null number |
| EncodeProperties.ExampleObjectWithMissingAttribute | pkg/river/vm/internal/ctyencode/encode.go:326-348 | At the entry point, a string map holding only attribute `a`, against an object type with a string attribute `a` and a number attribute `b`, gives `a` its string and `b` a null number |
| EncodeProperties.ExampleTupleArity | pkg/river/vm/internal/ctyencode/encode.go:402-404 | Three elements against a two-element tuple is the element-count error at the root path |
| EncodeProperties.ExampleNilCapsule | pkg/river/vm/internal/ctyencode/encode.go:474-477 | A nil pointer against a capsule type is the null capsule |
| Token.Offset | pkg/river/token/file.go:33-34 | The byte offset the Pos carries; the zero Pos has offset 0 |
| Token.IsValid | pkg/river/token/file.go:36-37 | A Pos is valid exactly when it has a file or a non-zero offset |
| Token.Add | pkg/river/token/file.go:25-31 | The new Pos has the same file and an offset larger by exactly `n` |
| Token.NewFile | pkg/river/token/file.go:87-93 | A new file has exactly one line, starting at offset 0, and is well formed |
| Token.FilePos | pkg/river/token/file.go:95-101 | A Pos built from a file and a non-negative offset refers to that file and offset, and is valid |
| Token.AddLine | pkg/river/token/file.go:106-113 | A line start is recorded exactly when it lies beyond the last one; the line table only grows and stays strictly increasing |
| Token.AddLinesKeepValid | pkg/river/token/file.go:106-113 | Whatever offsets arrive, in any order, the line table stays strictly increasing from 0 |
| Token.AddLinesIncreasing | pkg/river/token/file.go:106-113 | Offsets that arrive strictly increasing are all recorded, in order |
| Token.SearchInts | pkg/river/token/file.go:134-136 | Returns the index of the last line start at or before the offset, or -1 if there is none |
| Token.PositionFor | pkg/river/token/file.go:115-132 | The zero Pos gives the zero Position; otherwise the line is the one containing the offset, and line start plus column minus one is the offset; the result is a valid Position exactly when the Pos is not the zero one and its offset is not negative |
| Token.PosPosition | pkg/river/token/file.go:22-23 | Through the Pos's own file pointer: the zero Pos gives the zero Position even without a file; a nil file with any other offset dereferences nil and panics; otherwise it is the file's `PositionFor` |
| Token.AddWithinLine | pkg/river/token/file.go:25-31 | Moving a Pos forward by `n` without passing a line start keeps its line and moves its column and offset by exactly `n` |
| Token.PositionIsValid | pkg/river/token/file.go:48-52 | A Position is valid exactly when its line is at least 1; the zero Position is not |
| Token.PositionString | pkg/river/token/file.go:54-79 | The rendering is never empty and starts with the filename; an invalid position renders as its filename, or `-` without one; a valid one renders exactly as `file:line:column`, `file:line`, `line:column` or `line`, the column part only when the column is not 0 |
| Token.DecimalRoundTrip | pkg/river/token/file.go:69-71 | Decimal formatting of line and column is undone by parsing |
| Token.PositionStringRoundTrip | pkg/river/token/file.go:54-79 | A valid position with a column renders to a string from which filename, line and column are recovered exactly |
| Token.PositionStringWithoutColumn | pkg/river/token/file.go:54-79 | Without a column, the rendering ends with the line number, with no column suffix |
| Stdlib.Concat | pkg/river/vm/internal/stdlib/stdlib.go:15-21 | The result is the arguments' elements in argument order, as long as all of them together, and nil exactly when there are none |
| Stdlib.FlattenAppend | pkg/river/vm/internal/stdlib/stdlib.go:15-21 | Concatenating argument lists concatenates the results |
| Stdlib.FlattenLength | pkg/river/vm/internal/stdlib/stdlib.go:15-21 | The result is as long as all arguments together |
| Stdlib.FlattenIndex | pkg/river/vm/internal/stdlib/stdlib.go:15-21 | Element `j` of argument `i` sits right after all elements of the arguments before it |
| Stdlib.ConcatOfNothing | pkg/river/vm/internal/stdlib/stdlib.go:15-21 | No arguments, or only empty ones, give no elements |

## Left out

- `convert.Convert` (cty's type conversion) and reflect's `AssignableTo` for capsules are foreign code. They are parameters of `Env`. The type-soundness result assumes only what cty documents: a successful conversion has the requested type.
- The struct-tag resolver (`rivertags.Get`) is foreign code. A struct carries the attribute-to-field table it would produce. A field index outside the struct is treated as no field, which the resolver never produces.
- Floating-point and `big.Float` values are opaque numbers (`Inexact`). The model makes no claim about their precision or rounding. A NaN is marked on the Go float, because it makes the number handler panic.
- `cty.ListVal`, `cty.MapVal` and `cty.SetVal` infer the collection type from their elements, and panic on elements of mixed types. This matters whenever the requested element type contains `Dynamic` at any depth, as in `List(List(Dynamic))` or `List(Object({a: Dynamic}))`. The model records the requested element type and does not model the panic.
- Unknown and marked cty values are not modelled.
- CtyEncode.EncodeString: `cty.StringVal` stores the Unicode NFC normal form of its string (encode.go:134), through the text normalisation package, which is not part of this model. The model keeps the Go string's characters as given, so it is exact for strings already in NFC. The same holds for the key step `cty.StringVal(k)` at encode.go:218.
- EncodeProperties.ScalarValues: the string clause keeps the characters as given, for the same reason.
- EncodeProperties.MapHandler: `cty.MapVal` (encode.go:230) normalises every key to NFC, so two Go keys with the same normal form, such as `"\u00e9"` and `"e\u0301"`, become one cty key, and which value survives depends on Go's map order. The model keys the result by the Go keys as given. It is exact when no two keys share a normal form.
- EncodeProperties.SetHandler: `cty.SetVal` (encode.go:293) merges members that cty considers equal: numbers of equal value, such as `1` and `1.0` from `[]interface{}{1, 1.0}`, and strings with the same normal form. The model merges only identical values. `Whole(1)` and an `Inexact` value are never merged, because an `Inexact` representation is opaque.
- Error messages are reduced to a closed set of causes (`Cause`). The wording is not modelled. Where a message prints a Go type name (the map key type at encode.go lines 206 and 310, the struct type at lines 269 and 503), the cause records its reflect kind instead, because the model has no Go type names. A map key type is still told apart from its kind where it matters: `definedKey` marks a defined string type.
- EncodeProperties.EntriesIndependent: says only that a failure is the failure of SOME key. Which key is reported depends on Go's map iteration order, which is unspecified.
- EncodeProperties.MapHandler: says only that a failure is the failure of SOME key, for the same reason.
- EncodeProperties.AttrsIndependent: says only that a failure is the failure of SOME attribute, for the same reason.
- EncodeProperties.ObjectHandler: says only that a failure is the failure of SOME attribute, for the same reason.
- CtyEncode.EncodeCapsule: the branch for a value that is still a pointer after unwrapping is left out, because unwrapping never returns a pointer.
- The "unsupported target type" fallthrough of `encode` is left out. `Ty` has no other type constructors, so it cannot be reached.
- A top-level `nil` passed to `Encode` (the invalid reflect value) is represented as a nil interface. Both reach the typed null.
- Unwrap.UnwrapPointer: values are finite, acyclic trees. A pointer or interface chain that refers back to itself (`var x interface{}; x = &x`), on which the source loops forever, is outside the model. Pointer identity is not modelled either, so two pointers to one object look like pointers to two equal objects.
- `Pos.File` and `File.Name` are field reads and are not modelled separately.
- Token.Add: offsets are unbounded integers, so Go's 64-bit wrap-around of `p.off + n` is not modelled. Source files never come near that size.
- A `uintptr` has its own reflect kind, which the number handler does not accept. It is a `GoOther` in the model, like every other kind the encoder does not handle.
- The values of a `set.Set` are reflected with `reflect.ValueOf`, which never gives an interface kind. The model does not exclude a `GoIface` among them; such a member stands for no Go value.
- Token.FilePos: requires a non-negative offset, where `File.Pos` panics on a negative one.
- Files are shared by pointer in the source. Here a `Pos` refers to its file through a `FileRef`, and `File.AddLine` returns the updated file.
- `concat` does not change its arguments. In the model they are values, so this holds trivially.
- The other standard-library entries (`env`, which reads the process environment, and `unmarshal_json`, which calls the JSON decoder) are not part of this model.

=== FILE: encode.dfy ===
/**
 * The type-directed Go-to-cty encoder of
 * pkg/river/vm/internal/ctyencode/encode.go.
 *
 * `Encode` walks a reflected Go value against a target cty type and builds a
 * value of that type, or stops at the first failure with an error that
 * records the path (index and attribute steps) at which it happened.
 *
 * The functions are ghost because Go iterates maps in an unspecified order:
 * the model picks keys with `:|`, so a claim about a map or object failure
 * only says that SOME failing key's error is reported.
 */
module CtyEncode {
  import opened Wrappers
  import opened Values
  import opened Unwrap

  /** One step of a cty.Path: a list/tuple index, a map key, or an object attribute. */
  datatype PathStep = IndexAt(i: nat) | IndexKey(key: string) | Attr(name: string)

  type Path = seq<PathStep>

  /**
   * Why a call panics instead of returning. The source panics in three
   * places on inputs its checks let through:
   *
   * - `KeyNotAssignable`: a map lookup with a plain string key on a map
   *   whose key type is a defined string type;
   * - `ReadOnlyInterface`: `Interface()` on a value that carries a
   *   read-only flag, one reached through an unexported struct field;
   * - `NaNNumber`: a NaN float, which cty numbers cannot hold.
   */
  datatype PanicReason = KeyNotAssignable | ReadOnlyInterface | NaNNumber

  /**
   * The closed set of reasons an encoding can fail. `Panicked` stands for a
   * Go panic: it unwinds instead of being returned, and the model reports it
   * like an error so that it can say when it happens.
   */
  datatype Cause =
    | KindMismatch(kind: Kind, target: Ty)
    | NonStringKey(keyKind: Kind)
    | ElementCount(got: nat, need: nat)
    | FieldCount(got: nat, need: nat)
    | NotAddressable(capsule: Ty)
    | CapsuleMismatch(capsule: Ty, given: Native)
    | NotCtyValue(kind: Kind)
    | Unsuitable(reason: string)
    | Panicked(panic: PanicReason)

  /** An error together with the path at which it was raised. */
  datatype EncodeError = EncodeError(path: Path, cause: Cause)

  type Encoded = Result<TVal, EncodeError>

  /**
   * The collaborators the encoder calls but does not implement:
   * cty's `convert.Convert`, and reflect's assignability test between the
   * type of a Go value and the Go type a capsule type encapsulates.
   */
  datatype Env = Env(
    convert: (TVal, Ty) -> Result<TVal, string>,
    assignable: (Native, string) -> bool
  )

  /** What cty promises of `convert.Convert`: a successful conversion has the requested type. */
  ghost predicate ConvertConforms(env: Env) {
    forall v, t :: env.convert(v, t).Success? ==> Conforms(env.convert(v, t).value, t)
  }

  /** The native kinds the number handler accepts. */
  predicate NumberLike(u: Native) {
    || u.GoInt? || u.GoUint? || u.GoFloat?
    || (u.GoStruct? && (u.special.BigInt? || u.special.BigFloat?))
  }

  /**
   * The number handler panics on a NaN, and on a big.Int or big.Float it
   * can only read through `Interface()`, which a read-only value refuses.
   */
  predicate NumberPanics(u: Native, ro: ReadOnly) {
    (u.GoFloat? && u.nan) || (!ro.Writable? && u.GoStruct? && (u.special.BigInt? || u.special.BigFloat?))
  }

  /** The values a set is built from: a slice or array's elements, or a set.Set's values. */
  function SetMembers(u: Native): seq<Native> {
    if u.GoSlice? || u.GoArray? then u.elems
    else if u.GoStruct? && u.special.SetOf? then u.special.values
    else []
  }

  /** A Go value the set handler accepts: a slice, an array, or a set.Set. */
  predicate SetSource(u: Native) {
    u.GoSlice? || u.GoArray? || (u.GoStruct? && u.special.SetOf?)
  }

  /** Whether the set members of `u` are addressable: slice elements always, array elements when the array is, set.Set values never. */
  predicate MemberAddressable(u: Native, addr: bool) {
    u.GoSlice? || (u.GoArray? && addr)
  }

  /**
   * The read-only flag of the set members of `u`: a slice or array element
   * keeps any flag as a sticky one, and a set.Set's values are reflected
   * afresh and carry none.
   */
  function MemberReadOnly(u: Native, ro: ReadOnly): ReadOnly {
    if u.GoStruct? then Writable else Sticky(ro)
  }

  /**
   * The key Go's `range` visits first. Go leaves map iteration order
   * unspecified; the model fixes some choice and claims nothing about it.
   */
  ghost function Pick(keys: set<string>): (k: string)
    requires keys != {}
    ensures k in keys
  {
    var k :| k in keys; k
  }

  /**
   * Entry point: a fresh, empty path, and a top-level value that is neither
   * addressable nor read-only.
   */
  ghost function Encode(env: Env, val: Native, ty: Ty): (r: Encoded)
    ensures ConvertConforms(env) && r.Success? ==> Conforms(r.value, ty)
  {
    EncodeAt(env, val, false, Writable, ty, [])
  }

  /**
   * `encode`: a value whose static type is cty.Value goes to the converter,
   * before any dispatch on the target type; anything else is unwrapped and
   * then handled according to the target type.
   *
   * `addr` and `ro` are reflect's addressable and read-only flags of `val`:
   * how the value was reached decides both. reflect lets the encoder look at
   * a read-only value but refuses to hand it out through `Interface()`.
   */
  ghost function EncodeAt(env: Env, val: Native, addr: bool, ro: ReadOnly, ty: Ty, path: Path): (r: Encoded)
    ensures r.Failure? ==> path <= r.error.path
    ensures ConvertConforms(env) && r.Success? ==> Conforms(r.value, ty)
    decreases val, 4
  {
    if IsCtyValue(val) then
      if !ro.Writable? then Failure(EncodeError(path, Panicked(ReadOnlyInterface)))
      else Passthrough(env, val.special.v, ty, path)
    else EncodeIndirect(env, val, addr, ro, ty, path)
  }

  /**
   * The `unwrapPointer` prologue every handler starts with: a nil anywhere in
   * the chain makes the result the null of the target type. Dereferencing a
   * pointer keeps the read-only flag; unwrapping an interface makes it sticky.
   */
  ghost function EncodeIndirect(env: Env, val: Native, addr: bool, ro: ReadOnly, ty: Ty, path: Path): (r: Encoded)
    ensures r.Failure? ==> path <= r.error.path
    ensures ConvertConforms(env) && r.Success? ==> Conforms(r.value, ty)
    ensures NilInChain(val) ==> r == Success(Null(ty))
    decreases val, 3
  {
    match val
    case GoPtr(None) => Success(Null(ty))
    case GoIface(None) => Success(Null(ty))
    case GoPtr(Some(x)) => EncodeIndirect(env, x, true, ro, ty, path)
    case GoIface(Some(x)) => EncodeIndirect(env, x, false, Sticky(ro), ty, path)
    case _ => Dispatch(env, val, addr, ro, ty, path)
  }

  /** The switch on the target type's constructor, applied to an unwrapped value. */
  ghost function Dispatch(env: Env, u: Native, addr: bool, ro: ReadOnly, ty: Ty, path: Path): (r: Encoded)
    requires Direct(u)
    ensures r.Failure? ==> path <= r.error.path
    ensures ConvertConforms(env) && r.Success? ==> Conforms(r.value, ty)
    decreases u, 2
  {
    match ty
    case Bool => EncodeBool(u, path)
    case Number => EncodeNumber(u, ro, path)
    case String => EncodeString(u, path)
    case Dynamic => EncodeDynamic(u, ro, path)
    case List(ety) => EncodeList(env, u, addr, ro, ety, path)
    case Map(ety) => EncodeMap(env, u, ro, ety, path)
    case Set(ety) => EncodeSet(env, u, addr, ro, ety, path)
    case Object(attrs) => EncodeObject(env, u, addr, ro, attrs, path)
    case Tuple(tys) => EncodeTuple(env, u, addr, ro, tys, path)
    case Capsule(_) => EncodeCapsule(env, u, addr, ro, ty, path)
  }

  /** `encodePassthruogh`: a failed conversion becomes an "unsuitable value" error here. */
  function Passthrough(env: Env, v: TVal, ty: Ty, path: Path): (r: Encoded)
    ensures r.Failure? ==> r.error.path == path && r.error.cause.Unsuitable?
    ensures r.Success? <==> env.convert(v, ty).Success?
  {
    match env.convert(v, ty)
    case Success(c) => Success(c)
    case Failure(reason) => Failure(EncodeError(path, Unsuitable(reason)))
  }

  /** `encodeBool`: a Go bool becomes the cty bool of the same truth value. */
  function EncodeBool(u: Native, path: Path): (r: Encoded)
    requires Direct(u)
    ensures r.Success? <==> u.GoBool?
    ensures u.GoBool? ==> r.value == BoolVal(u.b)
    ensures r.Failure? ==> r.error == EncodeError(path, KindMismatch(KindOf(u), Bool))
  {
    match u
    case GoBool(b) => Success(BoolVal(b))
    case _ => Failure(EncodeError(path, KindMismatch(KindOf(u), Bool)))
  }

  /**
   * `encodeNumber`: integers of every width and big.Int values are exact
   * numbers of the same value; floats and big.Float values keep their
   * representation.
   */
  function EncodeNumber(u: Native, ro: ReadOnly, path: Path): (r: Encoded)
    requires Direct(u)
    ensures r.Success? <==> NumberLike(u) && !NumberPanics(u, ro)
    ensures u.GoInt? ==> r == Success(NumberVal(Whole(u.i)))
    ensures u.GoUint? ==> r == Success(NumberVal(Whole(u.u)))
    ensures u.GoFloat? && !u.nan ==> r == Success(NumberVal(Inexact(u.repr)))
    ensures u.GoStruct? && u.special.BigInt? && ro.Writable? ==> r == Success(NumberVal(Whole(u.special.i)))
    ensures u.GoStruct? && u.special.BigFloat? && ro.Writable? ==> r == Success(NumberVal(Inexact(u.special.repr)))
    ensures NumberPanics(u, ro) ==> r.Failure? && r.error.cause.Panicked?
    ensures !NumberLike(u) ==> r == Failure(EncodeError(path, KindMismatch(KindOf(u), Number)))
    ensures r.Failure? ==> r.error.path == path
  {
    match u
    case GoInt(i) => Success(NumberVal(Whole(i)))
    case GoUint(n) => Success(NumberVal(Whole(n)))
    case GoFloat(f, nan) =>
      if nan then Failure(EncodeError(path, Panicked(NaNNumber))) else Success(NumberVal(Inexact(f)))
    case GoStruct(_, _, _, _, BigInt(i)) =>
      if !ro.Writable? then Failure(EncodeError(path, Panicked(ReadOnlyInterface))) else Success(NumberVal(Whole(i)))
    case GoStruct(_, _, _, _, BigFloat(f)) =>
      if !ro.Writable? then Failure(EncodeError(path, Panicked(ReadOnlyInterface))) else Success(NumberVal(Inexact(f)))
    case _ => Failure(EncodeError(path, KindMismatch(KindOf(u), Number)))
  }

  /** `encodeString`: a Go string becomes the cty string of the same characters. */
  function EncodeString(u: Native, path: Path): (r: Encoded)
    requires Direct(u)
    ensures r.Success? <==> u.GoString?
    ensures u.GoString? ==> r.value == StringVal(u.s)
    ensures r.Failure? ==> r.error == EncodeError(path, KindMismatch(KindOf(u), String))
  {
    match u
    case GoString(s) => Success(StringVal(s))
    case _ => Failure(EncodeError(path, KindMismatch(KindOf(u), String)))
  }

  /** `encodeDynamic`: only a cty.Value (reached through indirection) is accepted, and it is returned unconverted. */
  function EncodeDynamic(u: Native, ro: ReadOnly, path: Path): (r: Encoded)
    requires Direct(u)
    ensures r.Success? <==> IsCtyValue(u) && ro.Writable?
    ensures r.Success? ==> r.value == u.special.v
    ensures IsCtyValue(u) && !ro.Writable? ==> r == Failure(EncodeError(path, Panicked(ReadOnlyInterface)))
    ensures !IsCtyValue(u) ==> r == Failure(EncodeError(path, NotCtyValue(KindOf(u))))
  {
    if !IsCtyValue(u) then Failure(EncodeError(path, NotCtyValue(KindOf(u))))
    else if !ro.Writable? then Failure(EncodeError(path, Panicked(ReadOnlyInterface)))
    else Success(u.special.v)
  }

  /**
   * `encodeCapsule`. After unwrapping the value is never a pointer, so its
   * address must be taken, which reflect allows only for addressable values.
   * Both the capsule and the mismatch message need `Interface()`.
   */
  function EncodeCapsule(env: Env, u: Native, addr: bool, ro: ReadOnly, capsule: Ty, path: Path): (r: Encoded)
    requires Direct(u) && capsule.Capsule?
    ensures r.Success? <==> addr && ro.Writable? && env.assignable(u, capsule.encapsulated)
    ensures r.Success? ==> r.value == CapsuleVal(capsule, u)
    ensures !addr ==> r == Failure(EncodeError(path, NotAddressable(capsule)))
    ensures addr && !ro.Writable? ==> r == Failure(EncodeError(path, Panicked(ReadOnlyInterface)))
    ensures addr && ro.Writable? && !env.assignable(u, capsule.encapsulated) ==>
      r == Failure(EncodeError(path, CapsuleMismatch(capsule, u)))
  {
    if !addr then Failure(EncodeError(path, NotAddressable(capsule)))
    else if !ro.Writable? then Failure(EncodeError(path, Panicked(ReadOnlyInterface)))
    else if !env.assignable(u, capsule.encapsulated) then Failure(EncodeError(path, CapsuleMismatch(capsule, u)))
    else Success(CapsuleVal(capsule, u))
  }

  /**
   * `encodeList`: a nil slice is null, an empty slice or array is the empty
   * list, anything else is encoded element by element under an index step.
   */
  ghost function EncodeList(env: Env, u: Native, addr: bool, ro: ReadOnly, ety: Ty, path: Path): (r: Encoded)
    requires Direct(u)
    ensures r.Failure? ==> path <= r.error.path
    ensures ConvertConforms(env) && r.Success? ==> Conforms(r.value, List(ety))
    ensures u.GoSlice? && u.isNil ==> r == Success(Null(List(ety)))
    ensures (u.GoSlice? && !u.isNil) || u.GoArray? ==>
      r.Success? ==> r.value.ListVal? && r.value.elemTy == ety && |r.value.elems| == |u.elems|
    ensures !u.GoSlice? && !u.GoArray? ==> r == Failure(EncodeError(path, KindMismatch(KindOf(u), List(ety))))
    decreases u, 1
  {
    if u.GoSlice? && u.isNil then Success(Null(List(ety)))
    else if u.GoSlice? || u.GoArray? then
      if |u.elems| == 0 then Success(ListVal(ety, []))
      else
        match EncodeItems(env, u, u.GoSlice? || addr, Sticky(ro), ety, path, 0)
        case Failure(e) => Failure(e)
        case Success(vs) => Success(ListVal(ety, vs))
    else Failure(EncodeError(path, KindMismatch(KindOf(u), List(ety))))
  }

  /** The elements `i..` of a slice or array, each under `IndexAt(i)`; stops at the first failure. */
  ghost function EncodeItems(env: Env, u: Native, childAddr: bool, childRo: ReadOnly, ety: Ty, path: Path, i: nat)
    : (r: Result<seq<TVal>, EncodeError>)
    requires u.GoSlice? || u.GoArray?
    requires i <= |u.elems|
    ensures r.Failure? ==> path <= r.error.path
    ensures r.Success? ==> |r.value| == |u.elems| - i
    ensures ConvertConforms(env) && r.Success? ==> forall j | 0 <= j < |r.value| :: Conforms(r.value[j], ety)
    decreases u, 0, |u.elems| - i
  {
    if i == |u.elems| then Success([])
    else
      match EncodeAt(env, u.elems[i], childAddr, childRo, ety, path + [IndexAt(i)])
      case Failure(e) => Failure(e)
      case Success(v) =>
        match EncodeItems(env, u, childAddr, childRo, ety, path, i + 1)
        case Failure(e) => Failure(e)
        case Success(vs) => Success([v] + vs)
  }

  /**
   * `encodeMap`: nil and empty maps are decided before the key kind is
   * looked at; a non-empty map needs string keys. The values are looked up
   * with a plain string key, which reflect refuses for a defined key type.
   */
  ghost function EncodeMap(env: Env, u: Native, ro: ReadOnly, ety: Ty, path: Path): (r: Encoded)
    requires Direct(u)
    ensures r.Failure? ==> path <= r.error.path
    ensures ConvertConforms(env) && r.Success? ==> Conforms(r.value, Map(ety))
    ensures u.GoMap? && u.isNil ==> r == Success(Null(Map(ety)))
    ensures !u.GoMap? ==> r == Failure(EncodeError(path, KindMismatch(KindOf(u), Map(ety))))
    decreases u, 1
  {
    match u
    case GoMap(keyKind, definedKey, isNil, entries) =>
      if isNil then Success(Null(Map(ety)))
      else if |entries| == 0 then Success(MapVal(ety, map[]))
      else if keyKind != StringKind then Failure(EncodeError(path, NonStringKey(keyKind)))
      else if definedKey then Failure(EncodeError(path, Panicked(KeyNotAssignable)))
      else
        (match EncodeEntries(env, u, Sticky(ro), ety, path, entries.Keys)
         case Failure(e) => Failure(e)
         case Success(m) => Success(MapVal(ety, m)))
    case _ => Failure(EncodeError(path, KindMismatch(KindOf(u), Map(ety))))
  }

  /** The map values under `keys`, each under `IndexKey(k)`, in an unspecified key order. */
  ghost function EncodeEntries(env: Env, u: Native, childRo: ReadOnly, ety: Ty, path: Path, keys: set<string>)
    : (r: Result<map<string, TVal>, EncodeError>)
    requires u.GoMap? && keys <= u.entries.Keys
    ensures r.Failure? ==> path <= r.error.path
    ensures r.Success? ==> r.value.Keys == keys
    ensures ConvertConforms(env) && r.Success? ==> forall k | k in r.value :: Conforms(r.value[k], ety)
    decreases u, 0, |keys|
  {
    if keys == {} then Success(map[])
    else
      var k := Pick(keys);
      match EncodeAt(env, u.entries[k], false, childRo, ety, path + [IndexKey(k)])
      case Failure(e) => Failure(e)
      case Success(v) =>
        match EncodeEntries(env, u, childRo, ety, path, keys - {k})
        case Failure(e) => Failure(e)
        case Success(m) => Success(m[k := v])
  }

  /**
   * `encodeSet`: like the list handler, or from a set.Set's values, but the
   * elements are encoded at the caller's path, without an index step. A
   * set.Set is read through `Interface()`, and its values are reflected
   * afresh: neither addressable nor read-only.
   */
  ghost function EncodeSet(env: Env, u: Native, addr: bool, ro: ReadOnly, ety: Ty, path: Path): (r: Encoded)
    requires Direct(u)
    ensures r.Failure? ==> path <= r.error.path
    ensures ConvertConforms(env) && r.Success? ==> Conforms(r.value, Set(ety))
    ensures u.GoSlice? && u.isNil ==> r == Success(Null(Set(ety)))
    ensures u.GoStruct? && u.special.SetOf? && !ro.Writable? ==> r == Failure(EncodeError(path, Panicked(ReadOnlyInterface)))
    ensures !SetSource(u) ==> r == Failure(EncodeError(path, KindMismatch(KindOf(u), Set(ety))))
    decreases u, 1
  {
    if u.GoSlice? && u.isNil then Success(Null(Set(ety)))
    else if SetSource(u) then
      if u.GoStruct? && !ro.Writable? then Failure(EncodeError(path, Panicked(ReadOnlyInterface)))
      else if |SetMembers(u)| == 0 then Success(SetVal(ety, {}))
      else
        match EncodeMembers(env, u, MemberAddressable(u, addr), MemberReadOnly(u, ro), ety, path, 0)
        case Failure(e) => Failure(e)
        case Success(vs) => Success(SetVal(ety, set v | v in vs))
    else Failure(EncodeError(path, KindMismatch(KindOf(u), Set(ety))))
  }

  /** The set members `i..`, all encoded at `path`; stops at the first failure. */
  ghost function EncodeMembers(env: Env, u: Native, childAddr: bool, childRo: ReadOnly, ety: Ty, path: Path, i: nat)
    : (r: Result<seq<TVal>, EncodeError>)
    requires SetSource(u)
    requires i <= |SetMembers(u)|
    ensures r.Failure? ==> path <= r.error.path
    ensures r.Success? ==> |r.value| == |SetMembers(u)| - i
    ensures ConvertConforms(env) && r.Success? ==> forall j | 0 <= j < |r.value| :: Conforms(r.value[j], ety)
    decreases u, 0, |SetMembers(u)| - i
  {
    if i == |SetMembers(u)| then Success([])
    else
      match EncodeAt(env, SetMembers(u)[i], childAddr, childRo, ety, path)
      case Failure(e) => Failure(e)
      case Success(v) =>
        match EncodeMembers(env, u, childAddr, childRo, ety, path, i + 1)
        case Failure(e) => Failure(e)
        case Success(vs) => Success([v] + vs)
  }

  /**
   * `encodeObject`: the target's declared attributes drive the iteration.
   * For a map the key kind is checked before the zero-attribute shortcut.
   */
  ghost function EncodeObject(env: Env, u: Native, addr: bool, ro: ReadOnly, attrs: map<string, Ty>, path: Path): (r: Encoded)
    requires Direct(u)
    ensures r.Failure? ==> path <= r.error.path
    ensures ConvertConforms(env) && r.Success? ==> Conforms(r.value, Object(attrs))
    ensures u.GoMap? && u.isNil ==> r == Success(Null(Object(attrs)))
    ensures !u.GoMap? && !u.GoStruct? ==> r == Failure(EncodeError(path, KindMismatch(KindOf(u), Object(attrs))))
    decreases u, 1
  {
    match u
    case GoMap(keyKind, _, isNil, _) =>
      if isNil then Success(Null(Object(attrs)))
      else if keyKind != StringKind then Failure(EncodeError(path, NonStringKey(keyKind)))
      else if |attrs| == 0 then Success(ObjectVal(map[]))
      else
        (match EncodeAttrs(env, u, addr, ro, attrs, path, attrs.Keys)
         case Failure(e) => Failure(e)
         case Success(m) => Success(ObjectVal(m)))
    case GoStruct(_, _, _, _, _) =>
      if |attrs| == 0 then Success(ObjectVal(map[]))
      else
        (match EncodeAttrs(env, u, addr, ro, attrs, path, attrs.Keys)
         case Failure(e) => Failure(e)
         case Success(m) => Success(ObjectVal(m)))
    case _ => Failure(EncodeError(path, KindMismatch(KindOf(u), Object(attrs))))
  }

  /** The declared attributes in `keys`, in an unspecified order. */
  ghost function EncodeAttrs(env: Env, u: Native, addr: bool, ro: ReadOnly, attrs: map<string, Ty>, path: Path, keys: set<string>)
    : (r: Result<map<string, TVal>, EncodeError>)
    requires u.GoMap? || u.GoStruct?
    requires keys <= attrs.Keys
    ensures r.Failure? ==> path <= r.error.path
    ensures r.Success? ==> r.value.Keys == keys
    ensures ConvertConforms(env) && r.Success? ==> forall k | k in r.value :: Conforms(r.value[k], attrs[k])
    decreases u, 0, |keys|
  {
    if keys == {} then Success(map[])
    else
      var k := Pick(keys);
      match EncodeAttr(env, u, addr, ro, k, attrs[k], path)
      case Failure(e) => Failure(e)
      case Success(v) =>
        match EncodeAttrs(env, u, addr, ro, attrs, path, keys - {k})
        case Failure(e) => Failure(e)
        case Success(m) => Success(m[k := v])
  }

  /** Whether attribute `k` has a source: a map key, or a field the tag resolver names. */
  predicate HasSource(u: Native, k: string) {
    if u.GoMap? then k in u.entries
    else u.GoStruct? && k in u.tags && u.tags[k] < |u.fields|
  }

  /**
   * The read-only flag of position `i` of `u`, itself reached with flag
   * `ro`. A slice element keeps any flag as a sticky one. A struct field
   * keeps only a sticky flag, and gains a flag of its own when it is
   * unexported: sticky for an ordinary field, `EmbedRO` for an embedded one.
   * The encoder reads every field, unexported ones included.
   */
  function ItemReadOnly(u: Native, ro: ReadOnly, i: nat): ReadOnly {
    if !u.GoStruct? then Sticky(ro)
    else if ro.StickyRO? || (i in u.unexported && i !in u.embedded) then StickyRO
    else if i in u.unexported then EmbedRO
    else Writable
  }

  /**
   * One attribute under `Attr(k)`: encoded from its source, or the null of
   * its type if it has none. A map value is looked up with a plain string
   * key, and its read-only flag is sticky; a struct field inherits
   * addressability and takes its read-only flag from `ItemReadOnly`.
   */
  ghost function EncodeAttr(env: Env, u: Native, addr: bool, ro: ReadOnly, k: string, at: Ty, path: Path): (r: Encoded)
    requires u.GoMap? || u.GoStruct?
    ensures r.Failure? ==> path <= r.error.path
    ensures ConvertConforms(env) && r.Success? ==> Conforms(r.value, at)
    ensures !HasSource(u, k) ==> r == Success(Null(at))
    decreases u, 0, 0
  {
    if !HasSource(u, k) then Success(Null(at))
    else if u.GoMap? then
      if u.definedKey then Failure(EncodeError(path + [Attr(k)], Panicked(KeyNotAssignable)))
      else EncodeAt(env, u.entries[k], false, Sticky(ro), at, path + [Attr(k)])
    else EncodeAt(env, u.fields[u.tags[k]], addr, ItemReadOnly(u, ro, u.tags[k]), at, path + [Attr(k)])
  }

  /**
   * `encodeTuple`: a slice or a struct, whose length or field count must
   * equal the number of element types before anything is encoded. Arrays
   * are not accepted.
   */
  ghost function EncodeTuple(env: Env, u: Native, addr: bool, ro: ReadOnly, tys: seq<Ty>, path: Path): (r: Encoded)
    requires Direct(u)
    ensures r.Failure? ==> path <= r.error.path
    ensures ConvertConforms(env) && r.Success? ==> Conforms(r.value, Tuple(tys))
    ensures u.GoSlice? && u.isNil ==> r == Success(Null(Tuple(tys)))
    ensures !u.GoSlice? && !u.GoStruct? ==> r == Failure(EncodeError(path, KindMismatch(KindOf(u), Tuple(tys))))
    decreases u, 1
  {
    match u
    case GoSlice(isNil, elems) =>
      if isNil then Success(Null(Tuple(tys)))
      else if |elems| != |tys| then Failure(EncodeError(path, ElementCount(|elems|, |tys|)))
      else if |tys| == 0 then Success(TupleVal([]))
      else
        (match EncodeTupleItems(env, u, true, ro, tys, path, 0)
         case Failure(e) => Failure(e)
         case Success(vs) => Success(TupleVal(vs)))
    case GoStruct(fields, _, _, _, _) =>
      if |fields| != |tys| then Failure(EncodeError(path, FieldCount(|fields|, |tys|)))
      else if |tys| == 0 then Success(TupleVal([]))
      else
        (match EncodeTupleItems(env, u, addr, ro, tys, path, 0)
         case Failure(e) => Failure(e)
         case Success(vs) => Success(TupleVal(vs)))
    case _ => Failure(EncodeError(path, KindMismatch(KindOf(u), Tuple(tys))))
  }

  /** The elements or fields a tuple is built from, by position. */
  function TupleSource(u: Native): seq<Native> {
    if u.GoSlice? then u.elems else if u.GoStruct? then u.fields else []
  }

  /** The slice elements or struct fields `i..`, by position, each against `tys[i]` under `IndexAt(i)`. */
  ghost function EncodeTupleItems(env: Env, u: Native, childAddr: bool, ro: ReadOnly, tys: seq<Ty>, path: Path, i: nat)
    : (r: Result<seq<TVal>, EncodeError>)
    requires u.GoSlice? || u.GoStruct?
    requires |TupleSource(u)| == |tys| && i <= |tys|
    ensures r.Failure? ==> path <= r.error.path
    ensures r.Success? ==> |r.value| == |tys| - i
    ensures ConvertConforms(env) && r.Success? ==> forall j | 0 <= j < |r.value| :: Conforms(r.value[j], tys[i + j])
    decreases u, 0, |tys| - i
  {
    if i == |tys| then Success([])
    else
      match EncodeAt(env, TupleSource(u)[i], childAddr, ItemReadOnly(u, ro, i), tys[i], path + [IndexAt(i)])
      case Failure(e) => Failure(e)
      case Success(v) =>
        match EncodeTupleItems(env, u, childAddr, ro, tys, path, i + 1)
        case Failure(e) => Failure(e)
        case Success(vs) => Success([v] + vs)
  }
}

=== FILE: encode_properties.dfy ===
/**
 * What the encoder promises, stated over the model in encode.dfy.
 *
 * Handler-level lemmas take an already unwrapped value `u`; `AtReached`
 * connects them to `EncodeAt`, which first unwraps.
 */
module EncodeProperties {
  import opened Wrappers
  import opened Values
  import opened Unwrap
  import opened CtyEncode

  // ---------------------------------------------------------------------------
  // Unwrapping, null propagation, passthrough

  /** Handling by the source's recipe: unwrap once, then dispatch on the target type. */
  ghost function ByUnwrapping(env: Env, val: Native, addr: bool, ro: ReadOnly, ty: Ty, path: Path): Encoded {
    match Unwrapped(val, addr, ro)
    case None => Success(Null(ty))
    case Some(Reached(u, a, f)) => Dispatch(env, u, a, f, ty, path)
  }

  /** Following the chain one indirection at a time is the same as `unwrapPointer` followed by the handler. */
  lemma {:induction false} UnwrapThenDispatch(env: Env, val: Native, addr: bool, ro: ReadOnly, ty: Ty, path: Path)
    ensures EncodeIndirect(env, val, addr, ro, ty, path) == ByUnwrapping(env, val, addr, ro, ty, path)
  {
    match val
    case GoPtr(Some(x)) => UnwrapThenDispatch(env, x, true, ro, ty, path);
    case GoIface(Some(x)) => UnwrapThenDispatch(env, x, false, Sticky(ro), ty, path);
    case _ =>
  }

  /** A value that is not a cty.Value and unwraps to `u` is handled as `u` with the flags unwrapping gave it. */
  lemma AtReached(env: Env, val: Native, addr: bool, ro: ReadOnly, ty: Ty, path: Path)
    requires !IsCtyValue(val) && Unwrapped(val, addr, ro).Some?
    ensures var reached := Unwrapped(val, addr, ro).value;
      EncodeAt(env, val, addr, ro, ty, path) == Dispatch(env, reached.value, reached.addressable, reached.readOnly, ty, path)
  {
    UnwrapThenDispatch(env, val, addr, ro, ty, path);
  }

  /** A nil at any depth of the indirection chain encodes to the null of the target type, never to an error. */
  lemma {:induction false} NullPropagation(env: Env, val: Native, addr: bool, ro: ReadOnly, ty: Ty, path: Path)
    requires NilInChain(val)
    ensures EncodeAt(env, val, addr, ro, ty, path) == Success(Null(ty))
  {
    UnwrapThenDispatch(env, val, addr, ro, ty, path);
  }

  /** The same at the entry point, for every target type. */
  lemma EncodeNilIsNull(env: Env, val: Native, ty: Ty)
    requires NilInChain(val)
    ensures Encode(env, val, ty) == Success(Null(ty))
  {
    NullPropagation(env, val, false, Writable, ty, []);
  }

  /**
   * A value whose static type is cty.Value is converted, whatever the target
   * type; a rejected conversion is an "unsuitable value" error at the
   * current path. One reached through an unexported field panics instead.
   */
  lemma PassthroughFirst(env: Env, val: Native, addr: bool, ro: ReadOnly, ty: Ty, path: Path)
    requires IsCtyValue(val)
    ensures var c := env.convert(val.special.v, ty);
      var r := EncodeAt(env, val, addr, ro, ty, path);
      && (!ro.Writable? ==> r == Failure(EncodeError(path, Panicked(ReadOnlyInterface))))
      && (ro.Writable? && c.Success? ==> r == Success(c.value))
      && (ro.Writable? && c.Failure? ==> r == Failure(EncodeError(path, Unsuitable(c.error))))
  {
  }

  /**
   * A cty.Value behind a pointer is not passed through: only the dynamic
   * handler accepts it, returning it unconverted; a bool target rejects it
   * as a Go struct.
   */
  lemma PointerToCtyValue(env: Env, fields: seq<Native>, tags: map<string, nat>, v: TVal, path: Path)
    ensures var p := GoPtr(Some(GoStruct(fields, {}, {}, tags, CtyValue(v))));
      && EncodeAt(env, p, false, Writable, Dynamic, path) == Success(v)
      && EncodeAt(env, p, false, Writable, Bool, path) == Failure(EncodeError(path, KindMismatch(StructKind, Bool)))
  {
    var p := GoPtr(Some(GoStruct(fields, {}, {}, tags, CtyValue(v))));
    UnwrapThenDispatch(env, p, false, Writable, Dynamic, path);
    UnwrapThenDispatch(env, p, false, Writable, Bool, path);
  }

  // ---------------------------------------------------------------------------
  // Scalars and dynamic

  /** Bool, number and string targets accept exactly the matching Go kinds (or a nil chain), the number target barring its panics. */
  lemma ScalarAcceptance(env: Env, val: Native, addr: bool, ro: ReadOnly, path: Path)
    requires !IsCtyValue(val)
    ensures var reached := Unwrapped(val, addr, ro);
      && (EncodeAt(env, val, addr, ro, Bool, path).Success? <==> reached.None? || reached.value.value.GoBool?)
      && (EncodeAt(env, val, addr, ro, Number, path).Success? <==>
            reached.None? || (NumberLike(reached.value.value) && !NumberPanics(reached.value.value, ro)))
      && (EncodeAt(env, val, addr, ro, String, path).Success? <==> reached.None? || reached.value.value.GoString?)
  {
    UnwrapThenDispatch(env, val, addr, ro, Bool, path);
    UnwrapThenDispatch(env, val, addr, ro, Number, path);
    UnwrapThenDispatch(env, val, addr, ro, String, path);
  }

  /**
   * The values the scalar handlers produce: a bool or string carries over
   * unchanged, integers and big.Int values are exact, floats and big.Float
   * values keep their representation. A NaN panics, and so does a big
   * number reached through an unexported field.
   */
  lemma ScalarValues(env: Env, val: Native, addr: bool, ro: ReadOnly, path: Path)
    requires !IsCtyValue(val) && Unwrapped(val, addr, ro).Some?
    ensures var u := Unwrapped(val, addr, ro).value.value;
      var num := EncodeAt(env, val, addr, ro, Number, path);
      var roPanic := Failure(EncodeError(path, Panicked(ReadOnlyInterface)));
      && (u.GoBool? ==> EncodeAt(env, val, addr, ro, Bool, path) == Success(BoolVal(u.b)))
      && (u.GoString? ==> EncodeAt(env, val, addr, ro, String, path) == Success(StringVal(u.s)))
      && (u.GoInt? ==> num == Success(NumberVal(Whole(u.i))))
      && (u.GoUint? ==> num == Success(NumberVal(Whole(u.u))))
      && (u.GoFloat? ==> num == if u.nan then Failure(EncodeError(path, Panicked(NaNNumber))) else Success(NumberVal(Inexact(u.repr))))
      && (u.GoStruct? && u.special.BigInt? ==> num == if ro.Writable? then Success(NumberVal(Whole(u.special.i))) else roPanic)
      && (u.GoStruct? && u.special.BigFloat? ==> num == if ro.Writable? then Success(NumberVal(Inexact(u.special.repr))) else roPanic)
  {
    AtReached(env, val, addr, ro, Bool, path);
    AtReached(env, val, addr, ro, String, path);
    AtReached(env, val, addr, ro, Number, path);
  }

  /**
   * A scalar failure names the Go kind reached and the requested type, at
   * the current path, unless it is one of the number handler's panics.
   */
  lemma ScalarRejection(env: Env, val: Native, addr: bool, ro: ReadOnly, ty: Ty, path: Path)
    requires !IsCtyValue(val) && (ty.Bool? || ty.Number? || ty.String?)
    requires EncodeAt(env, val, addr, ro, ty, path).Failure?
    ensures var reached := Unwrapped(val, addr, ro);
      && reached.Some?
      && var u := reached.value.value;
         EncodeAt(env, val, addr, ro, ty, path).error ==
           if ty.Number? && NumberPanics(u, ro) then
             EncodeError(path, Panicked(if u.GoFloat? then NaNNumber else ReadOnlyInterface))
           else EncodeError(path, KindMismatch(KindOf(u), ty))
  {
    UnwrapThenDispatch(env, val, addr, ro, ty, path);
  }

  /** A dynamic target accepts only a cty.Value (reached through indirection), unconverted. */
  lemma DynamicAcceptance(env: Env, val: Native, addr: bool, ro: ReadOnly, path: Path)
    requires !IsCtyValue(val)
    ensures var reached := Unwrapped(val, addr, ro);
      var r := EncodeAt(env, val, addr, ro, Dynamic, path);
      && (r.Success? <==> reached.None? || (IsCtyValue(reached.value.value) && ro.Writable?))
      && (reached.Some? && r.Success? ==> r.value == reached.value.value.special.v)
      && (reached.Some? && IsCtyValue(reached.value.value) && !ro.Writable? ==>
            r == Failure(EncodeError(path, Panicked(ReadOnlyInterface))))
      && (reached.Some? && !IsCtyValue(reached.value.value) ==>
            r == Failure(EncodeError(path, NotCtyValue(KindOf(reached.value.value)))))
  {
    UnwrapThenDispatch(env, val, addr, ro, Dynamic, path);
  }

  // ---------------------------------------------------------------------------
  // Capsules

  /**
   * A capsule needs an addressable value whose type is assignable to the
   * encapsulated type; a mismatch reports the capsule type and the value
   * given. Handing the value out panics if it is read-only.
   */
  lemma CapsuleRule(env: Env, val: Native, addr: bool, ro: ReadOnly, name: string, path: Path)
    requires !IsCtyValue(val)
    ensures var reached := Unwrapped(val, addr, ro);
      var r := EncodeAt(env, val, addr, ro, Capsule(name), path);
      && (reached.None? ==> r == Success(Null(Capsule(name))))
      && (reached.Some? ==>
            var u := reached.value.value;
            var a := reached.value.addressable;
            && (r.Success? <==> a && ro.Writable? && env.assignable(u, name))
            && (r.Success? ==> r.value == CapsuleVal(Capsule(name), u))
            && (!a ==> r == Failure(EncodeError(path, NotAddressable(Capsule(name)))))
            && (a && !ro.Writable? ==> r == Failure(EncodeError(path, Panicked(ReadOnlyInterface))))
            && (a && ro.Writable? && !env.assignable(u, name) ==>
                  r == Failure(EncodeError(path, CapsuleMismatch(Capsule(name), u)))))
  {
    UnwrapThenDispatch(env, val, addr, ro, Capsule(name), path);
  }

  /** So at the entry point a capsule payload must be passed by pointer. */
  lemma CapsuleNeedsPointer(env: Env, u: Native, name: string)
    requires Direct(u) && !IsCtyValue(u)
    ensures Encode(env, u, Capsule(name)) == Failure(EncodeError([], NotAddressable(Capsule(name))))
    ensures Encode(env, GoPtr(Some(u)), Capsule(name)).Success? <==> env.assignable(u, name)
  {
    CapsuleRule(env, u, false, Writable, name, []);
    CapsuleRule(env, GoPtr(Some(u)), false, Writable, name, []);
  }

  /**
   * A value whose last indirection is an interface is not addressable, so it
   * cannot be a capsule payload, whatever led to the interface.
   */
  lemma CapsuleBehindInterface(env: Env, val: Native, addr: bool, ro: ReadOnly, name: string, path: Path)
    requires !Direct(val) && !NilInChain(val) && LastIndirection(val).GoIface?
    ensures EncodeAt(env, val, addr, ro, Capsule(name), path) == Failure(EncodeError(path, NotAddressable(Capsule(name))))
  {
    CapsuleRule(env, val, addr, ro, name, path);
  }

  /**
   * A slice of interfaces holding a struct, against a list of capsules: the
   * element is not addressable, and the encoder says so at index 0.
   */
  lemma ExampleCapsuleInInterfaceSlice(env: Env, s: Native, name: string)
    requires Direct(s)
    ensures Encode(env, GoSlice(false, [GoIface(Some(s))]), List(Capsule(name)))
      == Failure(EncodeError([IndexAt(0)], NotAddressable(Capsule(name))))
  {
    var l := GoSlice(false, [GoIface(Some(s))]);
    AtReached(env, l, false, Writable, List(Capsule(name)), []);
    ListHandler(env, l, false, Writable, Capsule(name), []);
    assert [] + [IndexAt(0)] == [IndexAt(0)];
    CapsuleBehindInterface(env, GoIface(Some(s)), true, Writable, name, [IndexAt(0)]);
  }

  // ---------------------------------------------------------------------------
  // Lists

  /** Element `j` of a slice or array, encoded under `IndexAt(j)`. */
  ghost function ItemAt(env: Env, u: Native, childAddr: bool, ro: ReadOnly, ety: Ty, path: Path, j: nat): Encoded
    requires u.GoSlice? || u.GoArray?
    requires j < |u.elems|
  {
    EncodeAt(env, u.elems[j], childAddr, ro, ety, path + [IndexAt(j)])
  }

  /** One turn of the element loop: element `i`, then the rest. */
  lemma ItemsStep(env: Env, u: Native, childAddr: bool, ro: ReadOnly, ety: Ty, path: Path, i: nat)
    requires u.GoSlice? || u.GoArray?
    requires i < |u.elems|
    ensures var head := ItemAt(env, u, childAddr, ro, ety, path, i);
      var rest := EncodeItems(env, u, childAddr, ro, ety, path, i + 1);
      EncodeItems(env, u, childAddr, ro, ety, path, i)
        == if head.Failure? then Failure(head.error)
           else if rest.Failure? then Failure(rest.error)
           else Success([head.value] + rest.value)
  {
  }

  /** The element loop keeps order: it succeeds exactly when every element does, with each element's value in place. */
  lemma {:induction false} ItemsInOrder(env: Env, u: Native, childAddr: bool, ro: ReadOnly, ety: Ty, path: Path, i: nat)
    requires u.GoSlice? || u.GoArray?
    requires i <= |u.elems|
    ensures var r := EncodeItems(env, u, childAddr, ro, ety, path, i);
      && (r.Success? <==> forall j | i <= j < |u.elems| :: ItemAt(env, u, childAddr, ro, ety, path, j).Success?)
      && (r.Success? ==> forall j | i <= j < |u.elems| :: r.value[j - i] == ItemAt(env, u, childAddr, ro, ety, path, j).value)
    decreases |u.elems| - i
  {
    if i < |u.elems| {
      ItemsInOrder(env, u, childAddr, ro, ety, path, i + 1);
      ItemsStep(env, u, childAddr, ro, ety, path, i);
    }
  }

  /** Elements `i` up to, not including, `j` all encode. */
  ghost predicate ItemsSucceedBetween(env: Env, u: Native, childAddr: bool, ro: ReadOnly, ety: Ty, path: Path, i: nat, j: nat)
    requires u.GoSlice? || u.GoArray?
    requires j <= |u.elems|
  {
    forall l | i <= l < j :: ItemAt(env, u, childAddr, ro, ety, path, l).Success?
  }

  /** A successful item in front of a run of successful items extends the run. */
  lemma ItemsSucceedExtend(env: Env, u: Native, childAddr: bool, ro: ReadOnly, ety: Ty, path: Path, i: nat, j: nat)
    requires u.GoSlice? || u.GoArray?
    requires i < j <= |u.elems|
    requires ItemAt(env, u, childAddr, ro, ety, path, i).Success?
    requires ItemsSucceedBetween(env, u, childAddr, ro, ety, path, i + 1, j)
    ensures ItemsSucceedBetween(env, u, childAddr, ro, ety, path, i, j)
  {
  }

  /** A first failure behind a successful element is also the first failure counted from that element. */
  lemma ItemsFailureBehind(env: Env, u: Native, childAddr: bool, ro: ReadOnly, ety: Ty, path: Path, i: nat, e: EncodeError)
    requires (u.GoSlice? || u.GoArray?) && i + 1 <= |u.elems|
    requires ItemAt(env, u, childAddr, ro, ety, path, i).Success?
    requires exists j | i + 1 <= j < |u.elems| ::
      && ItemsSucceedBetween(env, u, childAddr, ro, ety, path, i + 1, j)
      && ItemAt(env, u, childAddr, ro, ety, path, j) == Failure(e)
    ensures exists j | i <= j < |u.elems| ::
      && ItemsSucceedBetween(env, u, childAddr, ro, ety, path, i, j)
      && ItemAt(env, u, childAddr, ro, ety, path, j) == Failure(e)
  {
    var j :| i + 1 <= j < |u.elems|
      && ItemsSucceedBetween(env, u, childAddr, ro, ety, path, i + 1, j)
      && ItemAt(env, u, childAddr, ro, ety, path, j) == Failure(e);
    ItemsSucceedExtend(env, u, childAddr, ro, ety, path, i, j);
  }

  /** When the element loop fails, it fails with the error of its first failing element. */
  lemma {:induction false} ItemsFirstFailure(env: Env, u: Native, childAddr: bool, ro: ReadOnly, ety: Ty, path: Path, i: nat)
    requires u.GoSlice? || u.GoArray?
    requires i <= |u.elems|
    ensures var r := EncodeItems(env, u, childAddr, ro, ety, path, i);
      r.Failure? ==> exists j | i <= j < |u.elems| ::
        && ItemsSucceedBetween(env, u, childAddr, ro, ety, path, i, j)
        && ItemAt(env, u, childAddr, ro, ety, path, j) == Failure(r.error)
    decreases |u.elems| - i
  {
    if i < |u.elems| {
      ItemsStep(env, u, childAddr, ro, ety, path, i);
      var head := ItemAt(env, u, childAddr, ro, ety, path, i);
      var rest := EncodeItems(env, u, childAddr, ro, ety, path, i + 1);
      if head.Failure? {
        assert ItemsSucceedBetween(env, u, childAddr, ro, ety, path, i, i);
      } else if rest.Failure? {
        ItemsFirstFailure(env, u, childAddr, ro, ety, path, i + 1);
        ItemsFailureBehind(env, u, childAddr, ro, ety, path, i, rest.error);
      }
    }
  }

  /**
   * Whatever indirections lead to it, a nil slice is the null list, while a
   * non-nil empty slice or an empty array is the empty list, which is not null.
   */
  lemma ListNullVersusEmpty(env: Env, val: Native, addr: bool, ro: ReadOnly, ety: Ty, path: Path)
    requires !IsCtyValue(val) && Unwrapped(val, addr, ro).Some?
    ensures var u := Unwrapped(val, addr, ro).value.value;
      var r := EncodeAt(env, val, addr, ro, List(ety), path);
      && (u.GoSlice? && u.isNil ==> r == Success(Null(List(ety))))
      && (((u.GoSlice? && !u.isNil) || u.GoArray?) && |u.elems| == 0 ==> r == Success(ListVal(ety, [])))
  {
    AtReached(env, val, addr, ro, List(ety), path);
  }

  /** Any kind other than slice or array is rejected by a list target, however it is reached. */
  lemma ListRejects(env: Env, val: Native, addr: bool, ro: ReadOnly, ety: Ty, path: Path)
    requires !IsCtyValue(val) && Unwrapped(val, addr, ro).Some?
    ensures var u := Unwrapped(val, addr, ro).value.value;
      !u.GoSlice? && !u.GoArray? ==>
        EncodeAt(env, val, addr, ro, List(ety), path) == Failure(EncodeError(path, KindMismatch(KindOf(u), List(ety))))
  {
    AtReached(env, val, addr, ro, List(ety), path);
  }

  /**
   * A non-nil, non-empty slice or array becomes a list of the same length
   * and order; otherwise the error is that of the first failing element,
   * raised under its index step.
   */
  lemma ListHandler(env: Env, u: Native, addr: bool, ro: ReadOnly, ety: Ty, path: Path)
    requires (u.GoSlice? && !u.isNil) || u.GoArray?
    requires |u.elems| > 0
    ensures var r := EncodeList(env, u, addr, ro, ety, path);
      var ca := u.GoSlice? || addr;
      var cr := Sticky(ro);
      && (r.Success? <==> forall j | 0 <= j < |u.elems| :: ItemAt(env, u, ca, cr, ety, path, j).Success?)
      && (r.Success? ==>
            && r.value.ListVal? && r.value.elemTy == ety && |r.value.elems| == |u.elems|
            && forall j | 0 <= j < |u.elems| :: r.value.elems[j] == ItemAt(env, u, ca, cr, ety, path, j).value)
      && (r.Failure? ==> exists j | 0 <= j < |u.elems| ::
            && (forall l | 0 <= l < j :: ItemAt(env, u, ca, cr, ety, path, l).Success?)
            && ItemAt(env, u, ca, cr, ety, path, j) == Failure(r.error))
  {
    ItemsInOrder(env, u, u.GoSlice? || addr, Sticky(ro), ety, path, 0);
    ItemsFirstFailure(env, u, u.GoSlice? || addr, Sticky(ro), ety, path, 0);
  }

  // ---------------------------------------------------------------------------
  // Maps

  /** The value under key `k`, encoded under `IndexKey(k)`; map values are never addressable. */
  ghost function EntryAt(env: Env, u: Native, ro: ReadOnly, ety: Ty, path: Path, k: string): Encoded
    requires u.GoMap? && k in u.entries
  {
    EncodeAt(env, u.entries[k], false, ro, ety, path + [IndexKey(k)])
  }

  /** A successful key in front of successful others makes all of them successful. */
  lemma EntriesSucceedExtend(env: Env, u: Native, ro: ReadOnly, ety: Ty, path: Path, keys: set<string>, k: string)
    requires u.GoMap? && keys <= u.entries.Keys && k in keys
    requires EntryAt(env, u, ro, ety, path, k).Success?
    requires forall l | l in keys - {k} :: EntryAt(env, u, ro, ety, path, l).Success?
    ensures forall l | l in keys :: EntryAt(env, u, ro, ety, path, l).Success?
  {
    forall l | l in keys
      ensures EntryAt(env, u, ro, ety, path, l).Success?
    {
      if l != k {
        assert l in keys - {k};
      }
    }
  }

  /** A failure among the other keys is a failure among all of them. */
  lemma EntriesFailureBehind(env: Env, u: Native, ro: ReadOnly, ety: Ty, path: Path, keys: set<string>, k: string, e: EncodeError)
    requires u.GoMap? && keys <= u.entries.Keys && k in keys
    requires exists l | l in keys - {k} :: EntryAt(env, u, ro, ety, path, l) == Failure(e)
    ensures exists l | l in keys :: EntryAt(env, u, ro, ety, path, l) == Failure(e)
  {
    var l :| l in keys - {k} && EntryAt(env, u, ro, ety, path, l) == Failure(e);
    assert l in keys;
  }

  /** Every key is encoded on its own; a failure is the failure of some key. */
  lemma {:induction false} EntriesIndependent(env: Env, u: Native, ro: ReadOnly, ety: Ty, path: Path, keys: set<string>)
    requires u.GoMap? && keys <= u.entries.Keys
    ensures var r := EncodeEntries(env, u, ro, ety, path, keys);
      && (r.Success? <==> forall k | k in keys :: EntryAt(env, u, ro, ety, path, k).Success?)
      && (r.Success? ==> forall k | k in keys :: r.value[k] == EntryAt(env, u, ro, ety, path, k).value)
      && (r.Failure? ==> exists k | k in keys ::
            EntryAt(env, u, ro, ety, path, k) == Failure(r.error))
    decreases |keys|
  {
    if keys != {} {
      var k := Pick(keys);
      EntriesIndependent(env, u, ro, ety, path, keys - {k});
      EntriesStep(env, u, ro, ety, path, keys);
      var head := EntryAt(env, u, ro, ety, path, k);
      var rest := EncodeEntries(env, u, ro, ety, path, keys - {k});
      if head.Success? && rest.Success? {
        EntriesSucceedExtend(env, u, ro, ety, path, keys, k);
      } else if head.Success? {
        EntriesFailureBehind(env, u, ro, ety, path, keys, k, rest.error);
      }
    }
  }

  /** One turn of the key loop: the key Go's `range` visits first, then the others. */
  lemma EntriesStep(env: Env, u: Native, ro: ReadOnly, ety: Ty, path: Path, keys: set<string>)
    requires u.GoMap? && keys <= u.entries.Keys && keys != {}
    ensures var k := Pick(keys);
      var head := EntryAt(env, u, ro, ety, path, k);
      var rest := EncodeEntries(env, u, ro, ety, path, keys - {k});
      EncodeEntries(env, u, ro, ety, path, keys)
        == if head.Failure? then Failure(head.error)
           else if rest.Failure? then Failure(rest.error)
           else Success(rest.value[k := head.value])
  {
  }

  /**
   * The map handler: nil is null and empty is the empty map, both decided
   * before the key kind; a non-empty map with non-string keys is rejected,
   * and one whose key type is a defined string type panics on the first
   * lookup; otherwise keys and values carry over one to one.
   */
  lemma MapHandler(env: Env, u: Native, ro: ReadOnly, ety: Ty, path: Path)
    requires u.GoMap?
    ensures var r := EncodeMap(env, u, ro, ety, path);
      var ordinary := !u.isNil && |u.entries| > 0 && u.keyKind == StringKind;
      && (u.isNil ==> r == Success(Null(Map(ety))))
      && (!u.isNil && |u.entries| == 0 ==> r == Success(MapVal(ety, map[])))
      && (!u.isNil && |u.entries| > 0 && u.keyKind != StringKind ==>
            r == Failure(EncodeError(path, NonStringKey(u.keyKind))))
      && (ordinary && u.definedKey ==> r == Failure(EncodeError(path, Panicked(KeyNotAssignable))))
      && (ordinary && !u.definedKey ==>
            && (r.Success? <==> forall k | k in u.entries :: EntryAt(env, u, Sticky(ro), ety, path, k).Success?)
            && (r.Success? ==>
                  && r.value.MapVal? && r.value.elemTy == ety && r.value.entries.Keys == u.entries.Keys
                  && forall k | k in u.entries :: r.value.entries[k] == EntryAt(env, u, Sticky(ro), ety, path, k).value)
            && (r.Failure? ==> exists k | k in u.entries ::
                  EntryAt(env, u, Sticky(ro), ety, path, k) == Failure(r.error)))
  {
    EntriesIndependent(env, u, Sticky(ro), ety, path, u.entries.Keys);
  }

  /** Any kind other than map is rejected by a map target, however it is reached. */
  lemma MapRejects(env: Env, val: Native, addr: bool, ro: ReadOnly, ety: Ty, path: Path)
    requires !IsCtyValue(val) && Unwrapped(val, addr, ro).Some?
    ensures var u := Unwrapped(val, addr, ro).value.value;
      !u.GoMap? ==>
        EncodeAt(env, val, addr, ro, Map(ety), path) == Failure(EncodeError(path, KindMismatch(KindOf(u), Map(ety))))
  {
    AtReached(env, val, addr, ro, Map(ety), path);
  }

  /**
   * Non-string keys are rejected by both the map and the object handler,
   * except that an EMPTY such map still encodes to the empty map under a map
   * target, while an object target rejects it.
   */
  lemma NonStringKeys(env: Env, val: Native, addr: bool, ro: ReadOnly, ety: Ty, attrs: map<string, Ty>, path: Path)
    requires !IsCtyValue(val) && Unwrapped(val, addr, ro).Some?
    requires var u := Unwrapped(val, addr, ro).value.value; u.GoMap? && !u.isNil && u.keyKind != StringKind
    ensures var u := Unwrapped(val, addr, ro).value.value;
      && EncodeAt(env, val, addr, ro, Object(attrs), path) == Failure(EncodeError(path, NonStringKey(u.keyKind)))
      && (|u.entries| > 0 ==> EncodeAt(env, val, addr, ro, Map(ety), path) == Failure(EncodeError(path, NonStringKey(u.keyKind))))
      && (|u.entries| == 0 ==> EncodeAt(env, val, addr, ro, Map(ety), path) == Success(MapVal(ety, map[])))
  {
    AtReached(env, val, addr, ro, Object(attrs), path);
    AtReached(env, val, addr, ro, Map(ety), path);
  }

  // ---------------------------------------------------------------------------
  // Sets

  /** Set member `j`, encoded at the caller's path: sets push no path step. */
  ghost function MemberAt(env: Env, u: Native, childAddr: bool, childRo: ReadOnly, ety: Ty, path: Path, j: nat): Encoded
    requires j < |SetMembers(u)|
  {
    EncodeAt(env, SetMembers(u)[j], childAddr, childRo, ety, path)
  }

  /** One turn of the member loop: member `i`, then the rest. */
  lemma MembersStep(env: Env, u: Native, childAddr: bool, childRo: ReadOnly, ety: Ty, path: Path, i: nat)
    requires SetSource(u)
    requires i < |SetMembers(u)|
    ensures var head := MemberAt(env, u, childAddr, childRo, ety, path, i);
      var rest := EncodeMembers(env, u, childAddr, childRo, ety, path, i + 1);
      EncodeMembers(env, u, childAddr, childRo, ety, path, i)
        == if head.Failure? then Failure(head.error)
           else if rest.Failure? then Failure(rest.error)
           else Success([head.value] + rest.value)
  {
  }

  /** The member loop succeeds exactly when every member does, with each member's value in place. */
  lemma {:induction false} MembersInOrder(env: Env, u: Native, childAddr: bool, childRo: ReadOnly, ety: Ty, path: Path, i: nat)
    requires SetSource(u)
    requires i <= |SetMembers(u)|
    ensures var r := EncodeMembers(env, u, childAddr, childRo, ety, path, i);
      && (r.Success? <==> forall j | i <= j < |SetMembers(u)| :: MemberAt(env, u, childAddr, childRo, ety, path, j).Success?)
      && (r.Success? ==> forall j | i <= j < |SetMembers(u)| :: r.value[j - i] == MemberAt(env, u, childAddr, childRo, ety, path, j).value)
    decreases |SetMembers(u)| - i
  {
    if i < |SetMembers(u)| {
      MembersInOrder(env, u, childAddr, childRo, ety, path, i + 1);
      MembersStep(env, u, childAddr, childRo, ety, path, i);
    }
  }

  /** Members `i` up to, not including, `j` all encode. */
  ghost predicate MembersSucceedBetween(env: Env, u: Native, childAddr: bool, childRo: ReadOnly, ety: Ty, path: Path, i: nat, j: nat)
    requires j <= |SetMembers(u)|
  {
    forall l | i <= l < j :: MemberAt(env, u, childAddr, childRo, ety, path, l).Success?
  }

  /** A successful member in front of a run of successful members extends the run. */
  lemma MembersSucceedExtend(env: Env, u: Native, childAddr: bool, childRo: ReadOnly, ety: Ty, path: Path, i: nat, j: nat)
    requires i < j <= |SetMembers(u)|
    requires MemberAt(env, u, childAddr, childRo, ety, path, i).Success?
    requires MembersSucceedBetween(env, u, childAddr, childRo, ety, path, i + 1, j)
    ensures MembersSucceedBetween(env, u, childAddr, childRo, ety, path, i, j)
  {
  }

  /** A first failure behind a successful member is also the first failure counted from that member. */
  lemma MembersFailureBehind(env: Env, u: Native, childAddr: bool, childRo: ReadOnly, ety: Ty, path: Path, i: nat, e: EncodeError)
    requires i + 1 <= |SetMembers(u)|
    requires MemberAt(env, u, childAddr, childRo, ety, path, i).Success?
    requires exists j | i + 1 <= j < |SetMembers(u)| ::
      && MembersSucceedBetween(env, u, childAddr, childRo, ety, path, i + 1, j)
      && MemberAt(env, u, childAddr, childRo, ety, path, j) == Failure(e)
    ensures exists j | i <= j < |SetMembers(u)| ::
      && MembersSucceedBetween(env, u, childAddr, childRo, ety, path, i, j)
      && MemberAt(env, u, childAddr, childRo, ety, path, j) == Failure(e)
  {
    var j :| i + 1 <= j < |SetMembers(u)|
      && MembersSucceedBetween(env, u, childAddr, childRo, ety, path, i + 1, j)
      && MemberAt(env, u, childAddr, childRo, ety, path, j) == Failure(e);
    MembersSucceedExtend(env, u, childAddr, childRo, ety, path, i, j);
  }

  /** When the member loop fails, it fails with the error of its first failing member. */
  lemma {:induction false} MembersFirstFailure(env: Env, u: Native, childAddr: bool, childRo: ReadOnly, ety: Ty, path: Path, i: nat)
    requires SetSource(u)
    requires i <= |SetMembers(u)|
    ensures var r := EncodeMembers(env, u, childAddr, childRo, ety, path, i);
      r.Failure? ==> exists j | i <= j < |SetMembers(u)| ::
        && MembersSucceedBetween(env, u, childAddr, childRo, ety, path, i, j)
        && MemberAt(env, u, childAddr, childRo, ety, path, j) == Failure(r.error)
    decreases |SetMembers(u)| - i
  {
    if i < |SetMembers(u)| {
      MembersStep(env, u, childAddr, childRo, ety, path, i);
      var head := MemberAt(env, u, childAddr, childRo, ety, path, i);
      var rest := EncodeMembers(env, u, childAddr, childRo, ety, path, i + 1);
      if head.Failure? {
        assert MembersSucceedBetween(env, u, childAddr, childRo, ety, path, i, i);
      } else if rest.Failure? {
        MembersFirstFailure(env, u, childAddr, childRo, ety, path, i + 1);
        MembersFailureBehind(env, u, childAddr, childRo, ety, path, i, rest.error);
      }
    }
  }

  /**
   * The set handler on a non-nil source: a read-only set.Set panics, since
   * it is read through `Interface()`; otherwise the result holds exactly the
   * encoded members, and a failing member's error is reported as raised at
   * the caller's path.
   */
  lemma SetHandler(env: Env, u: Native, addr: bool, ro: ReadOnly, ety: Ty, path: Path)
    requires SetSource(u) && !(u.GoSlice? && u.isNil)
    ensures var r := EncodeSet(env, u, addr, ro, ety, path);
      var ca := MemberAddressable(u, addr);
      var cr := MemberReadOnly(u, ro);
      var n := |SetMembers(u)|;
      && (u.GoStruct? && !ro.Writable? ==> r == Failure(EncodeError(path, Panicked(ReadOnlyInterface))))
      && (!(u.GoStruct? && !ro.Writable?) ==>
            && (n == 0 ==> r == Success(SetVal(ety, {})))
            && (r.Success? <==> forall j | 0 <= j < n :: MemberAt(env, u, ca, cr, ety, path, j).Success?)
            && (r.Success? ==>
                  && r.value.SetVal? && r.value.elemTy == ety
                  && (forall j | 0 <= j < n :: MemberAt(env, u, ca, cr, ety, path, j).value in r.value.members)
                  && (forall m | m in r.value.members :: exists j | 0 <= j < n :: MemberAt(env, u, ca, cr, ety, path, j) == Success(m)))
            && (r.Failure? ==> exists j | 0 <= j < n :: MemberAt(env, u, ca, cr, ety, path, j) == Failure(r.error)))
  {
    var ca := MemberAddressable(u, addr);
    var cr := MemberReadOnly(u, ro);
    SetStep(env, u, addr, ro, ety, path);
    MembersAsSet(env, u, ca, cr, ety, path);
    var r := EncodeSet(env, u, addr, ro, ety, path);
    var ms := EncodeMembers(env, u, ca, cr, ety, path, 0);
    if !(u.GoStruct? && !ro.Writable?) && |SetMembers(u)| > 0 {
      if ms.Success? {
        assert r.value.members == set v | v in ms.value;
      } else {
        assert r.error == ms.error;
      }
    }
  }

  /**
   * The member loop, read as a set: it succeeds exactly when every member
   * does, the set of its values is exactly the set of encoded members, and
   * a failure is some member's failure.
   */
  lemma MembersAsSet(env: Env, u: Native, childAddr: bool, childRo: ReadOnly, ety: Ty, path: Path)
    requires SetSource(u)
    ensures var ms := EncodeMembers(env, u, childAddr, childRo, ety, path, 0);
      var n := |SetMembers(u)|;
      && (ms.Success? <==> forall j | 0 <= j < n :: MemberAt(env, u, childAddr, childRo, ety, path, j).Success?)
      && (ms.Success? ==>
            && (forall j | 0 <= j < n :: MemberAt(env, u, childAddr, childRo, ety, path, j).value in (set v | v in ms.value))
            && (forall m | m in (set v | v in ms.value) :: exists j | 0 <= j < n :: MemberAt(env, u, childAddr, childRo, ety, path, j) == Success(m)))
      && (ms.Failure? ==> exists j | 0 <= j < n :: MemberAt(env, u, childAddr, childRo, ety, path, j) == Failure(ms.error))
  {
    var ms := EncodeMembers(env, u, childAddr, childRo, ety, path, 0);
    MembersInOrder(env, u, childAddr, childRo, ety, path, 0);
    if ms.Success? {
      var vs := ms.value;
      forall j | 0 <= j < |SetMembers(u)|
        ensures MemberAt(env, u, childAddr, childRo, ety, path, j).value in (set v | v in vs)
      {
        assert vs[j] == MemberAt(env, u, childAddr, childRo, ety, path, j).value;
      }
      forall m | m in (set v | v in vs)
        ensures exists j | 0 <= j < |SetMembers(u)| :: MemberAt(env, u, childAddr, childRo, ety, path, j) == Success(m)
      {
        var j :| 0 <= j < |vs| && vs[j] == m;
        assert MemberAt(env, u, childAddr, childRo, ety, path, j) == Success(m);
      }
    } else {
      MembersFirstFailure(env, u, childAddr, childRo, ety, path, 0);
    }
  }

  /** The set handler on a non-nil source, one level down: the panic, the empty shortcut, or the member loop. */
  lemma SetStep(env: Env, u: Native, addr: bool, ro: ReadOnly, ety: Ty, path: Path)
    requires SetSource(u) && !(u.GoSlice? && u.isNil)
    ensures var members := EncodeMembers(env, u, MemberAddressable(u, addr), MemberReadOnly(u, ro), ety, path, 0);
      EncodeSet(env, u, addr, ro, ety, path)
        == if u.GoStruct? && !ro.Writable? then Failure(EncodeError(path, Panicked(ReadOnlyInterface)))
           else if |SetMembers(u)| == 0 then Success(SetVal(ety, {}))
           else if members.Failure? then Failure(members.error)
           else Success(SetVal(ety, set v | v in members.value))
  {
  }

  /**
   * Whatever indirections lead to it, a nil slice is the null set, while a
   * non-nil empty slice, an empty array or an empty set.Set that can be read
   * is the empty set.
   */
  lemma SetNullVersusEmpty(env: Env, val: Native, addr: bool, ro: ReadOnly, ety: Ty, path: Path)
    requires !IsCtyValue(val) && Unwrapped(val, addr, ro).Some?
    ensures var u := Unwrapped(val, addr, ro).value.value;
      var r := EncodeAt(env, val, addr, ro, Set(ety), path);
      && (u.GoSlice? && u.isNil ==> r == Success(Null(Set(ety))))
      && (SetSource(u) && !(u.GoSlice? && u.isNil) && !(u.GoStruct? && !ro.Writable?) && |SetMembers(u)| == 0 ==>
            r == Success(SetVal(ety, {})))
  {
    AtReached(env, val, addr, ro, Set(ety), path);
  }

  /** A struct that is not a set.Set, and any kind other than slice or array, is rejected, however it is reached. */
  lemma SetRejects(env: Env, val: Native, addr: bool, ro: ReadOnly, ety: Ty, path: Path)
    requires !IsCtyValue(val) && Unwrapped(val, addr, ro).Some?
    ensures var u := Unwrapped(val, addr, ro).value.value;
      !SetSource(u) ==>
        EncodeAt(env, val, addr, ro, Set(ety), path) == Failure(EncodeError(path, KindMismatch(KindOf(u), Set(ety))))
  {
    AtReached(env, val, addr, ro, Set(ety), path);
  }

  // ---------------------------------------------------------------------------
  // Objects

  /** Declared attribute `k`, encoded from its source if it has one. */
  ghost function AttrAt(env: Env, u: Native, addr: bool, ro: ReadOnly, attrs: map<string, Ty>, path: Path, k: string): Encoded
    requires (u.GoMap? || u.GoStruct?) && k in attrs
  {
    EncodeAttr(env, u, addr, ro, k, attrs[k], path)
  }

  /** A successful key in front of successful others makes all of them successful. */
  lemma AttrsSucceedExtend(env: Env, u: Native, addr: bool, ro: ReadOnly, attrs: map<string, Ty>, path: Path, keys: set<string>, k: string)
    requires (u.GoMap? || u.GoStruct?) && keys <= attrs.Keys && k in keys
    requires AttrAt(env, u, addr, ro, attrs, path, k).Success?
    requires forall l | l in keys - {k} :: AttrAt(env, u, addr, ro, attrs, path, l).Success?
    ensures forall l | l in keys :: AttrAt(env, u, addr, ro, attrs, path, l).Success?
  {
    forall l | l in keys
      ensures AttrAt(env, u, addr, ro, attrs, path, l).Success?
    {
      if l != k {
        assert l in keys - {k};
      }
    }
  }

  /** A failure among the other keys is a failure among all of them. */
  lemma AttrsFailureBehind(env: Env, u: Native, addr: bool, ro: ReadOnly, attrs: map<string, Ty>, path: Path, keys: set<string>, k: string, e: EncodeError)
    requires (u.GoMap? || u.GoStruct?) && keys <= attrs.Keys && k in keys
    requires exists l | l in keys - {k} :: AttrAt(env, u, addr, ro, attrs, path, l) == Failure(e)
    ensures exists l | l in keys :: AttrAt(env, u, addr, ro, attrs, path, l) == Failure(e)
  {
    var l :| l in keys - {k} && AttrAt(env, u, addr, ro, attrs, path, l) == Failure(e);
    assert l in keys;
  }

  /** Every declared attribute is encoded on its own; a failure is the failure of some attribute. */
  lemma {:induction false} AttrsIndependent(env: Env, u: Native, addr: bool, ro: ReadOnly, attrs: map<string, Ty>, path: Path, keys: set<string>)
    requires u.GoMap? || u.GoStruct?
    requires keys <= attrs.Keys
    ensures var r := EncodeAttrs(env, u, addr, ro, attrs, path, keys);
      && (r.Success? <==> forall k | k in keys :: AttrAt(env, u, addr, ro, attrs, path, k).Success?)
      && (r.Success? ==> forall k | k in keys :: r.value[k] == AttrAt(env, u, addr, ro, attrs, path, k).value)
      && (r.Failure? ==> exists k | k in keys :: AttrAt(env, u, addr, ro, attrs, path, k) == Failure(r.error))
    decreases |keys|
  {
    if keys != {} {
      var k := Pick(keys);
      AttrsIndependent(env, u, addr, ro, attrs, path, keys - {k});
      AttrsStep(env, u, addr, ro, attrs, path, keys);
      var head := AttrAt(env, u, addr, ro, attrs, path, k);
      var rest := EncodeAttrs(env, u, addr, ro, attrs, path, keys - {k});
      if head.Success? && rest.Success? {
        AttrsSucceedExtend(env, u, addr, ro, attrs, path, keys, k);
      } else if head.Success? {
        AttrsFailureBehind(env, u, addr, ro, attrs, path, keys, k, rest.error);
      }
    }
  }

  /** One turn of the attribute loop: the attribute Go's `range` visits first, then the others. */
  lemma AttrsStep(env: Env, u: Native, addr: bool, ro: ReadOnly, attrs: map<string, Ty>, path: Path, keys: set<string>)
    requires u.GoMap? || u.GoStruct?
    requires keys <= attrs.Keys && keys != {}
    ensures var k := Pick(keys);
      var head := AttrAt(env, u, addr, ro, attrs, path, k);
      var rest := EncodeAttrs(env, u, addr, ro, attrs, path, keys - {k});
      EncodeAttrs(env, u, addr, ro, attrs, path, keys)
        == if head.Failure? then Failure(head.error)
           else if rest.Failure? then Failure(rest.error)
           else Success(rest.value[k := head.value])
  {
  }

  /**
   * What one attribute with a source is encoded from, under `Attr(k)`: the
   * map value under key `k`, looked up with a plain string key, or the field
   * the tag resolver names, with the read-only flag `ItemReadOnly` gives it.
   */
  ghost function FromSource(env: Env, u: Native, addr: bool, ro: ReadOnly, k: string, at: Ty, path: Path): Encoded
    requires (u.GoMap? || u.GoStruct?) && HasSource(u, k)
  {
    if u.GoMap? then
      if u.definedKey then Failure(EncodeError(path + [Attr(k)], Panicked(KeyNotAssignable)))
      else EncodeAt(env, u.entries[k], false, Sticky(ro), at, path + [Attr(k)])
    else EncodeAt(env, u.fields[u.tags[k]], addr, ItemReadOnly(u, ro, u.tags[k]), at, path + [Attr(k)])
  }

  /**
   * The object handler on a string-keyed map or a struct: the result has
   * exactly the declared attributes; an attribute without a source is the
   * null of its type and is never a reason to fail; one with a source is
   * encoded from it.
   */
  lemma ObjectHandler(env: Env, u: Native, addr: bool, ro: ReadOnly, attrs: map<string, Ty>, path: Path)
    requires (u.GoMap? && !u.isNil && u.keyKind == StringKind) || u.GoStruct?
    ensures var r := EncodeObject(env, u, addr, ro, attrs, path);
      && (r.Success? <==> forall k | k in attrs && HasSource(u, k) :: FromSource(env, u, addr, ro, k, attrs[k], path).Success?)
      && (r.Success? ==>
            && r.value.ObjectVal? && r.value.attrs.Keys == attrs.Keys
            && (forall k | k in attrs && !HasSource(u, k) :: r.value.attrs[k] == Null(attrs[k]))
            && (forall k | k in attrs && HasSource(u, k) :: r.value.attrs[k] == FromSource(env, u, addr, ro, k, attrs[k], path).value))
      && (r.Failure? ==> exists k | k in attrs && HasSource(u, k) ::
            FromSource(env, u, addr, ro, k, attrs[k], path) == Failure(r.error))
  {
    AttrsIndependent(env, u, addr, ro, attrs, path, attrs.Keys);
    ObjectStep(env, u, addr, ro, attrs, path);
    forall k | k in attrs
      ensures AttrAt(env, u, addr, ro, attrs, path, k)
        == if HasSource(u, k) then FromSource(env, u, addr, ro, k, attrs[k], path) else Success(Null(attrs[k]))
    {
      AttrFromSource(env, u, addr, ro, attrs, path, k);
    }
  }

  /** An attribute is the null of its type without a source, and is encoded from its source otherwise. */
  lemma AttrFromSource(env: Env, u: Native, addr: bool, ro: ReadOnly, attrs: map<string, Ty>, path: Path, k: string)
    requires (u.GoMap? || u.GoStruct?) && k in attrs
    ensures AttrAt(env, u, addr, ro, attrs, path, k)
      == if HasSource(u, k) then FromSource(env, u, addr, ro, k, attrs[k], path) else Success(Null(attrs[k]))
  {
  }

  /** The object handler on a string-keyed map or a struct, one level down: the empty shortcut or the attribute loop. */
  lemma ObjectStep(env: Env, u: Native, addr: bool, ro: ReadOnly, attrs: map<string, Ty>, path: Path)
    requires (u.GoMap? && !u.isNil && u.keyKind == StringKind) || u.GoStruct?
    ensures var loop := EncodeAttrs(env, u, addr, ro, attrs, path, attrs.Keys);
      EncodeObject(env, u, addr, ro, attrs, path)
        == if |attrs| == 0 then Success(ObjectVal(map[]))
           else if loop.Failure? then Failure(loop.error)
           else Success(ObjectVal(loop.value))
  {
  }

  /**
   * For a map, nil is null and the key kind is checked before the
   * zero-attribute shortcut; a struct has no key check.
   */
  lemma ObjectShortcuts(env: Env, val: Native, addr: bool, ro: ReadOnly, attrs: map<string, Ty>, path: Path)
    requires !IsCtyValue(val) && Unwrapped(val, addr, ro).Some?
    ensures var u := Unwrapped(val, addr, ro).value.value;
      var r := EncodeAt(env, val, addr, ro, Object(attrs), path);
      && (u.GoMap? && u.isNil ==> r == Success(Null(Object(attrs))))
      && (u.GoMap? && !u.isNil && u.keyKind != StringKind ==> r == Failure(EncodeError(path, NonStringKey(u.keyKind))))
      && (|attrs| == 0 && (u.GoStruct? || (u.GoMap? && !u.isNil && u.keyKind == StringKind)) ==>
            r == Success(ObjectVal(map[])))
  {
    AtReached(env, val, addr, ro, Object(attrs), path);
  }

  /** Any kind other than map or struct is rejected by an object target, however it is reached. */
  lemma ObjectRejects(env: Env, val: Native, addr: bool, ro: ReadOnly, attrs: map<string, Ty>, path: Path)
    requires !IsCtyValue(val) && Unwrapped(val, addr, ro).Some?
    ensures var u := Unwrapped(val, addr, ro).value.value;
      !u.GoMap? && !u.GoStruct? ==>
        EncodeAt(env, val, addr, ro, Object(attrs), path) == Failure(EncodeError(path, KindMismatch(KindOf(u), Object(attrs))))
  {
    AtReached(env, val, addr, ro, Object(attrs), path);
  }

  /**
   * A cty.Value held in an unexported field cannot be handed to the
   * converter: mapping it to an attribute panics under that attribute.
   */
  lemma UnexportedCtyValueField(env: Env, u: Native, addr: bool, ro: ReadOnly, k: string, at: Ty, path: Path)
    requires u.GoStruct? && k in u.tags && u.tags[k] < |u.fields|
    requires u.tags[k] in u.unexported && IsCtyValue(u.fields[u.tags[k]])
    ensures EncodeAttr(env, u, addr, ro, k, at, path) == Failure(EncodeError(path + [Attr(k)], Panicked(ReadOnlyInterface)))
  {
  }

  // ---------------------------------------------------------------------------
  // Tuples

  /** Position `j` of a tuple source, encoded against `tys[j]` under `IndexAt(j)`. */
  ghost function TupleItemAt(env: Env, u: Native, childAddr: bool, ro: ReadOnly, tys: seq<Ty>, path: Path, j: nat): Encoded
    requires j < |TupleSource(u)| && j < |tys|
  {
    EncodeAt(env, TupleSource(u)[j], childAddr, ItemReadOnly(u, ro, j), tys[j], path + [IndexAt(j)])
  }

  /** One turn of the tuple loop: position `i`, then the rest. */
  lemma TupleItemsStep(env: Env, u: Native, childAddr: bool, ro: ReadOnly, tys: seq<Ty>, path: Path, i: nat)
    requires u.GoSlice? || u.GoStruct?
    requires |TupleSource(u)| == |tys| && i < |tys|
    ensures var head := TupleItemAt(env, u, childAddr, ro, tys, path, i);
      var rest := EncodeTupleItems(env, u, childAddr, ro, tys, path, i + 1);
      EncodeTupleItems(env, u, childAddr, ro, tys, path, i)
        == if head.Failure? then Failure(head.error)
           else if rest.Failure? then Failure(rest.error)
           else Success([head.value] + rest.value)
  {
  }

  /** The tuple loop encodes position by position: it succeeds exactly when every position does, with each value in place. */
  lemma {:induction false} TupleItemsInOrder(env: Env, u: Native, childAddr: bool, ro: ReadOnly, tys: seq<Ty>, path: Path, i: nat)
    requires u.GoSlice? || u.GoStruct?
    requires |TupleSource(u)| == |tys| && i <= |tys|
    ensures var r := EncodeTupleItems(env, u, childAddr, ro, tys, path, i);
      && (r.Success? <==> forall j | i <= j < |tys| :: TupleItemAt(env, u, childAddr, ro, tys, path, j).Success?)
      && (r.Success? ==> forall j | i <= j < |tys| :: r.value[j - i] == TupleItemAt(env, u, childAddr, ro, tys, path, j).value)
    decreases |tys| - i
  {
    if i < |tys| {
      TupleItemsInOrder(env, u, childAddr, ro, tys, path, i + 1);
      TupleItemsStep(env, u, childAddr, ro, tys, path, i);
    }
  }

  /** Positions `i` up to, not including, `j` all encode. */
  ghost predicate TupleItemsSucceedBetween(env: Env, u: Native, childAddr: bool, ro: ReadOnly, tys: seq<Ty>, path: Path, i: nat, j: nat)
    requires j <= |TupleSource(u)| && j <= |tys|
  {
    forall l | i <= l < j :: TupleItemAt(env, u, childAddr, ro, tys, path, l).Success?
  }

  /** A successful position in front of a run of successful positions extends the run. */
  lemma TupleItemsSucceedExtend(env: Env, u: Native, childAddr: bool, ro: ReadOnly, tys: seq<Ty>, path: Path, i: nat, j: nat)
    requires i < j <= |TupleSource(u)| && j <= |tys|
    requires TupleItemAt(env, u, childAddr, ro, tys, path, i).Success?
    requires TupleItemsSucceedBetween(env, u, childAddr, ro, tys, path, i + 1, j)
    ensures TupleItemsSucceedBetween(env, u, childAddr, ro, tys, path, i, j)
  {
  }

  /** A first failure behind a successful position is also the first failure counted from that position. */
  lemma TupleItemsFailureBehind(env: Env, u: Native, childAddr: bool, ro: ReadOnly, tys: seq<Ty>, path: Path, i: nat, e: EncodeError)
    requires |TupleSource(u)| == |tys| && i + 1 <= |tys|
    requires TupleItemAt(env, u, childAddr, ro, tys, path, i).Success?
    requires exists j | i + 1 <= j < |tys| ::
      && TupleItemsSucceedBetween(env, u, childAddr, ro, tys, path, i + 1, j)
      && TupleItemAt(env, u, childAddr, ro, tys, path, j) == Failure(e)
    ensures exists j | i <= j < |tys| ::
      && TupleItemsSucceedBetween(env, u, childAddr, ro, tys, path, i, j)
      && TupleItemAt(env, u, childAddr, ro, tys, path, j) == Failure(e)
  {
    var j :| i + 1 <= j < |tys|
      && TupleItemsSucceedBetween(env, u, childAddr, ro, tys, path, i + 1, j)
      && TupleItemAt(env, u, childAddr, ro, tys, path, j) == Failure(e);
    TupleItemsSucceedExtend(env, u, childAddr, ro, tys, path, i, j);
  }

  /** When the tuple loop fails, it fails with the error of its first failing position. */
  lemma {:induction false} TupleItemsFirstFailure(env: Env, u: Native, childAddr: bool, ro: ReadOnly, tys: seq<Ty>, path: Path, i: nat)
    requires u.GoSlice? || u.GoStruct?
    requires |TupleSource(u)| == |tys| && i <= |tys|
    ensures var r := EncodeTupleItems(env, u, childAddr, ro, tys, path, i);
      r.Failure? ==> exists j | i <= j < |tys| ::
        && TupleItemsSucceedBetween(env, u, childAddr, ro, tys, path, i, j)
        && TupleItemAt(env, u, childAddr, ro, tys, path, j) == Failure(r.error)
    decreases |tys| - i
  {
    if i < |tys| {
      TupleItemsStep(env, u, childAddr, ro, tys, path, i);
      var head := TupleItemAt(env, u, childAddr, ro, tys, path, i);
      var rest := EncodeTupleItems(env, u, childAddr, ro, tys, path, i + 1);
      if head.Failure? {
        assert TupleItemsSucceedBetween(env, u, childAddr, ro, tys, path, i, i);
      } else if rest.Failure? {
        TupleItemsFirstFailure(env, u, childAddr, ro, tys, path, i + 1);
        TupleItemsFailureBehind(env, u, childAddr, ro, tys, path, i, rest.error);
      }
    }
  }

  /** The arity error a tuple handler raises for a source of the wrong length. */
  function ArityError(u: Native, tys: seq<Ty>, path: Path): EncodeError {
    EncodeError(path, if u.GoSlice? then ElementCount(|TupleSource(u)|, |tys|) else FieldCount(|TupleSource(u)|, |tys|))
  }

  /**
   * Tuple arity is strict: the handler reports the arity error, with both
   * counts and at the current path, exactly when the counts differ.
   * Otherwise the elements or fields are encoded by position, each with the
   * read-only flag `ItemReadOnly` gives it.
   */
  lemma TupleHandler(env: Env, u: Native, addr: bool, ro: ReadOnly, tys: seq<Ty>, path: Path)
    requires (u.GoSlice? && !u.isNil) || u.GoStruct?
    ensures var r := EncodeTuple(env, u, addr, ro, tys, path);
      var ca := u.GoSlice? || addr;
      && (r == Failure(ArityError(u, tys, path)) <==> |TupleSource(u)| != |tys|)
      && (|TupleSource(u)| == |tys| ==>
            && (r.Success? <==> forall j | 0 <= j < |tys| :: TupleItemAt(env, u, ca, ro, tys, path, j).Success?)
            && (r.Success? ==>
                  && r.value.TupleVal? && |r.value.items| == |tys|
                  && forall j | 0 <= j < |tys| :: r.value.items[j] == TupleItemAt(env, u, ca, ro, tys, path, j).value)
            && (r.Failure? ==> exists j | 0 <= j < |tys| ::
                  && (forall l | 0 <= l < j :: TupleItemAt(env, u, ca, ro, tys, path, l).Success?)
                  && TupleItemAt(env, u, ca, ro, tys, path, j) == Failure(r.error)))
  {
    var ca := u.GoSlice? || addr;
    var r := EncodeTuple(env, u, addr, ro, tys, path);
    TupleStep(env, u, addr, ro, tys, path);
    if |TupleSource(u)| == |tys| {
      TupleItemsInOrder(env, u, ca, ro, tys, path, 0);
      TupleItemsFirstFailure(env, u, ca, ro, tys, path, 0);
      if r.Failure? && |tys| > 0 {
        var j :| 0 <= j < |tys| && TupleItemAt(env, u, ca, ro, tys, path, j) == Failure(r.error);
        assert path + [IndexAt(j)] <= r.error.path;
        assert |r.error.path| > |path|;
      }
    }
  }

  /** The tuple handler on a non-nil source, one level down: the arity check, the empty shortcut, or the position loop. */
  lemma TupleStep(env: Env, u: Native, addr: bool, ro: ReadOnly, tys: seq<Ty>, path: Path)
    requires (u.GoSlice? && !u.isNil) || u.GoStruct?
    ensures |TupleSource(u)| != |tys| ==> EncodeTuple(env, u, addr, ro, tys, path) == Failure(ArityError(u, tys, path))
    ensures |TupleSource(u)| == |tys| ==>
      var items := EncodeTupleItems(env, u, u.GoSlice? || addr, ro, tys, path, 0);
      EncodeTuple(env, u, addr, ro, tys, path)
        == if |tys| == 0 then Success(TupleVal([]))
           else if items.Failure? then Failure(items.error)
           else Success(TupleVal(items.value))
  {
  }

  /**
   * However it is reached, a nil slice is the null tuple, and any kind other
   * than slice or struct, an array included, is rejected.
   */
  lemma TupleRejects(env: Env, val: Native, addr: bool, ro: ReadOnly, tys: seq<Ty>, path: Path)
    requires !IsCtyValue(val) && Unwrapped(val, addr, ro).Some?
    ensures var u := Unwrapped(val, addr, ro).value.value;
      var r := EncodeAt(env, val, addr, ro, Tuple(tys), path);
      && (u.GoSlice? && u.isNil ==> r == Success(Null(Tuple(tys))))
      && (!u.GoSlice? && !u.GoStruct? ==> r == Failure(EncodeError(path, KindMismatch(KindOf(u), Tuple(tys)))))
  {
    AtReached(env, val, addr, ro, Tuple(tys), path);
  }

  // ---------------------------------------------------------------------------
  // Worked examples

  /** A three-element int slice against List(Number). */
  lemma ExampleListOfNumbers(env: Env)
    ensures Encode(env, GoSlice(false, [GoInt(1), GoInt(2), GoInt(3)]), List(Number))
      == Success(ListVal(Number, [NumberVal(Whole(1)), NumberVal(Whole(2)), NumberVal(Whole(3))]))
  {
    var u := GoSlice(false, [GoInt(1), GoInt(2), GoInt(3)]);
    AtReached(env, u, false, Writable, List(Number), []);
    ListHandler(env, u, false, Writable, Number, []);
    AtReached(env, GoInt(1), true, Writable, Number, [IndexAt(0)]);
    AtReached(env, GoInt(2), true, Writable, Number, [IndexAt(1)]);
    AtReached(env, GoInt(3), true, Writable, Number, [IndexAt(2)]);
    assert ItemAt(env, u, true, Writable, Number, [], 0) == Success(NumberVal(Whole(1)));
    assert ItemAt(env, u, true, Writable, Number, [], 1) == Success(NumberVal(Whole(2)));
    assert ItemAt(env, u, true, Writable, Number, [], 2) == Success(NumberVal(Whole(3)));
    var r := EncodeList(env, u, false, Writable, Number, []);
    assert r.Success?;
    assert r.value.elems == [NumberVal(Whole(1)), NumberVal(Whole(2)), NumberVal(Whole(3))];
  }

  /** The present attribute of the next example, encoded from the map under its attribute step. */
  lemma ExampleObjectPresentAttribute(env: Env, a: string, x: string)
    ensures FromSource(env, GoMap(StringKind, false, false, map[a := GoString(x)]), false, Writable, a, String, [])
      == Success(StringVal(x))
  {
    assert [] + [Attr(a)] == [Attr(a)];
    AtReached(env, GoString(x), false, Writable, String, [Attr(a)]);
  }

  /** The object handler on the map of the next example. */
  lemma ExampleObjectHandler(env: Env, a: string, b: string, x: string)
    requires a != b
    ensures EncodeObject(env, GoMap(StringKind, false, false, map[a := GoString(x)]), false, Writable, map[a := String, b := Number], [])
      == Success(ObjectVal(map[a := StringVal(x), b := Null(Number)]))
  {
    var u := GoMap(StringKind, false, false, map[a := GoString(x)]);
    var attrs := map[a := String, b := Number];
    var want := map[a := StringVal(x), b := Null(Number)];
    var r := EncodeObject(env, u, false, Writable, attrs, []);
    ExampleObjectPresentAttribute(env, a, x);
    assert !HasSource(u, b);
    assert forall k | k in attrs && HasSource(u, k) :: k == a;
    ObjectHandler(env, u, false, Writable, attrs, []);
    assert r.value.attrs.Keys == want.Keys;
    assert r.value.attrs == want;
  }

  /**
   * A map holding only attribute `a` against Object{a: String, b: Number}:
   * `a` is encoded and `b`, which the map lacks, becomes a null number.
   */
  lemma ExampleObjectWithMissingAttribute(env: Env, a: string, b: string, x: string)
    requires a != b
    ensures Encode(env, GoMap(StringKind, false, false, map[a := GoString(x)]), Object(map[a := String, b := Number]))
      == Success(ObjectVal(map[a := StringVal(x), b := Null(Number)]))
  {
    AtReached(env, GoMap(StringKind, false, false, map[a := GoString(x)]), false, Writable, Object(map[a := String, b := Number]), []);
    ExampleObjectHandler(env, a, b, x);
  }

  /** A three-element slice against a two-element tuple type: an arity error at the root. */
  lemma ExampleTupleArity(env: Env)
    ensures Encode(env, GoSlice(false, [GoInt(1), GoString("x"), GoBool(true)]), Tuple([Number, String]))
      == Failure(EncodeError([], ElementCount(3, 2)))
  {
    var u := GoSlice(false, [GoInt(1), GoString("x"), GoBool(true)]);
    AtReached(env, u, false, Writable, Tuple([Number, String]), []);
  }

  /**
   * A pointer to a struct whose only field is an unexported cty.Value, tagged
   * as attribute `a`, against Object{a: at}: the encoder panics under `a`.
   */
  lemma ExampleUnexportedCtyValue(env: Env, v: TVal, a: string, at: Ty)
    ensures var s := GoStruct([GoStruct([], {}, {}, map[], CtyValue(v))], {0}, {}, map[a := 0], Plain);
      Encode(env, GoPtr(Some(s)), Object(map[a := at])) == Failure(EncodeError([Attr(a)], Panicked(ReadOnlyInterface)))
  {
    var s := GoStruct([GoStruct([], {}, {}, map[], CtyValue(v))], {0}, {}, map[a := 0], Plain);
    var attrs := map[a := at];
    AtReached(env, GoPtr(Some(s)), false, Writable, Object(attrs), []);
    ObjectHandler(env, s, true, Writable, attrs, []);
    UnexportedCtyValueField(env, s, true, Writable, a, at, []);
    assert [] + [Attr(a)] == [Attr(a)];
  }

  /**
   * A struct whose only field is an unexported cty.Value, against a one-item
   * tuple: the field is read by position all the same, and the encoder panics
   * at position 0.
   */
  lemma ExampleUnexportedTupleField(env: Env, v: TVal)
    ensures var s := GoStruct([GoStruct([], {}, {}, map[], CtyValue(v))], {0}, {}, map[], Plain);
      Encode(env, s, Tuple([String])) == Failure(EncodeError([IndexAt(0)], Panicked(ReadOnlyInterface)))
  {
    var s := GoStruct([GoStruct([], {}, {}, map[], CtyValue(v))], {0}, {}, map[], Plain);
    AtReached(env, s, false, Writable, Tuple([String]), []);
    TupleHandler(env, s, false, Writable, [String], []);
    assert ItemReadOnly(s, Writable, 0) == StickyRO;
    assert [] + [IndexAt(0)] == [IndexAt(0)];
    PassthroughFirst(env, s.fields[0], false, StickyRO, String, [IndexAt(0)]);
    assert TupleItemAt(env, s, false, Writable, [String], [], 0).Failure?;
  }

  /**
   * A struct `s` whose only field is unexported and holds, directly or
   * through a pointer, a struct `inner` with one exported cty.Value field,
   * against Tuple([Tuple([String])]). When the field is embedded
   * (`struct{ inner }` or `struct{ *inner }`) its read-only flag is dropped
   * at `inner`'s field and the cty.Value is converted; when it is an
   * ordinary field the flag sticks and the encoder panics at [0, 0].
   */
  lemma ExampleNestedUnexportedField(env: Env, v: TVal, embedded: bool, viaPointer: bool)
    ensures var inner := GoStruct([GoStruct([], {}, {}, map[], CtyValue(v))], {}, {}, map[], Plain);
      var field := if viaPointer then GoPtr(Some(inner)) else inner;
      var s := GoStruct([field], {0}, if embedded then {0} else {}, map[], Plain);
      var c := env.convert(v, String);
      var r := Encode(env, s, Tuple([Tuple([String])]));
      && (!embedded ==> r == Failure(EncodeError([IndexAt(0), IndexAt(0)], Panicked(ReadOnlyInterface))))
      && (embedded && c.Success? ==> r == Success(TupleVal([TupleVal([c.value])])))
      && (embedded && c.Failure? ==> r == Failure(EncodeError([IndexAt(0), IndexAt(0)], Unsuitable(c.error))))
  {
    var cv := GoStruct([], {}, {}, map[], CtyValue(v));
    var inner := GoStruct([cv], {}, {}, map[], Plain);
    var field := if viaPointer then GoPtr(Some(inner)) else inner;
    var s := GoStruct([field], {0}, if embedded then {0} else {}, map[], Plain);
    var fro := if embedded then EmbedRO else StickyRO;
    var p0 := [IndexAt(0)];
    var p00 := [IndexAt(0), IndexAt(0)];
    AtReached(env, s, false, Writable, Tuple([Tuple([String])]), []);
    TupleHandler(env, s, false, Writable, [Tuple([String])], []);
    assert ItemReadOnly(s, Writable, 0) == fro;
    assert [] + [IndexAt(0)] == p0;
    AtReached(env, field, false, fro, Tuple([String]), p0);
    var a := viaPointer;
    assert Unwrapped(field, false, fro) == Some(Reached(inner, a, fro));
    TupleHandler(env, inner, a, fro, [String], p0);
    assert p0 + [IndexAt(0)] == p00;
    var cro := ItemReadOnly(inner, fro, 0);
    assert cro == if embedded then Writable else StickyRO;
    PassthroughFirst(env, cv, a, cro, String, p00);
    assert TupleItemAt(env, inner, a, fro, [String], p0, 0) == EncodeAt(env, cv, a, cro, String, p00);
    assert TupleItemAt(env, s, false, Writable, [Tuple([String])], [], 0) == EncodeAt(env, field, false, fro, Tuple([String]), p0);
    var c := env.convert(v, String);
    if embedded && c.Success? {
      var ri := EncodeAt(env, field, false, fro, Tuple([String]), p0);
      assert ri.value.items == [c.value];
      var r := Encode(env, s, Tuple([Tuple([String])]));
      assert r.value.items == [TupleVal([c.value])];
    }
  }

  /**
   * A non-empty map whose key type is defined on top of string (`type K
   * string`), against a map type: the lookup with a plain string key panics.
   */
  lemma ExampleDefinedStringKey(env: Env)
    ensures Encode(env, GoMap(StringKind, true, false, map["a" := GoString("x")]), Map(String))
      == Failure(EncodeError([], Panicked(KeyNotAssignable)))
  {
    var m := GoMap(StringKind, true, false, map["a" := GoString("x")]);
    assert "a" in m.entries;
    AtReached(env, m, false, Writable, Map(String), []);
    MapHandler(env, m, Writable, String, []);
  }

  /** A nil pointer against a capsule type: the null capsule. */
  lemma ExampleNilCapsule(env: Env)
    ensures Encode(env, GoPtr(None), Capsule("FileHandle")) == Success(Null(Capsule("FileHandle")))
  {
    EncodeNilIsNull(env, GoPtr(None), Capsule("FileHandle"));
  }
}

=== FILE: stdlib.dfy ===
/**
 * The `concat` entry of the River standard library
 * (pkg/river/vm/internal/stdlib/stdlib.go): concatenation of any number of
 * arrays.
 */
module Stdlib {

  /** A Go slice: a nil slice is distinguishable from an empty one. */
  datatype Slice<T> = Slice(isNil: bool, elems: seq<T>)

  /** Reference definition: the arrays' elements, in argument order. */
  function Flatten<T>(arrays: seq<seq<T>>): seq<T>
    decreases |arrays|
  {
    if |arrays| == 0 then [] else Flatten(arrays[..|arrays| - 1]) + arrays[|arrays| - 1]
  }

  /** The sum of the arrays' lengths. */
  function TotalLength<T>(arrays: seq<seq<T>>): nat
    decreases |arrays|
  {
    if |arrays| == 0 then 0 else TotalLength(arrays[..|arrays| - 1]) + |arrays[|arrays| - 1]|
  }

  /**
   * `concat`: append every array to an accumulator that starts as a nil
   * slice. Appending nothing to a nil slice leaves it nil, so the result is
   * nil exactly when there is nothing to return.
   */
  method Concat<T>(arrays: seq<seq<T>>) returns (res: Slice<T>)
    ensures res.elems == Flatten(arrays)
    ensures |res.elems| == TotalLength(arrays)
    ensures res.isNil <==> TotalLength(arrays) == 0
  {
    res := Slice(true, []);
    for i := 0 to |arrays|
      invariant res.elems == Flatten(arrays[..i])
      invariant |res.elems| == TotalLength(arrays[..i])
      invariant res.isNil <==> |res.elems| == 0
    {
      assert arrays[..i + 1][..i] == arrays[..i];
      if |arrays[i]| > 0 {
        res := Slice(false, res.elems + arrays[i]);
      }
    }
    assert arrays[..|arrays|] == arrays;
  }

  /** Flattening a concatenation of argument lists concatenates the flattenings. */
  lemma {:induction false} FlattenAppend<T>(a: seq<seq<T>>, b: seq<seq<T>>)
    ensures Flatten(a + b) == Flatten(a) + Flatten(b)
    decreases |b|
  {
    if |b| > 0 {
      var b' := b[..|b| - 1];
      assert (a + b)[..|a + b| - 1] == a + b';
      FlattenAppend(a, b');
    } else {
      assert a + b == a;
    }
  }

  /** The flattening is as long as all arrays together. */
  lemma {:induction false} FlattenLength<T>(arrays: seq<seq<T>>)
    ensures |Flatten(arrays)| == TotalLength(arrays)
    decreases |arrays|
  {
    if |arrays| > 0 {
      FlattenLength(arrays[..|arrays| - 1]);
    }
  }

  /**
   * Order is kept: element `j` of argument `i` sits right after the elements
   * of the arguments before `i`.
   */
  lemma FlattenIndex<T>(arrays: seq<seq<T>>, i: nat, j: nat)
    requires i < |arrays| && j < |arrays[i]|
    ensures TotalLength(arrays[..i]) + j < |Flatten(arrays)|
    ensures Flatten(arrays)[TotalLength(arrays[..i]) + j] == arrays[i][j]
  {
    assert arrays == arrays[..i] + [arrays[i]] + arrays[i + 1..];
    FlattenAppend(arrays[..i] + [arrays[i]], arrays[i + 1..]);
    FlattenAppend(arrays[..i], [arrays[i]]);
    FlattenLength(arrays[..i]);
    assert Flatten([arrays[i]]) == arrays[i] by {
      assert [arrays[i]][..0] == [];
    }
  }

  /** With no arguments, or only empty ones, the result is a nil slice. */
  lemma {:induction false} ConcatOfNothing<T>(arrays: seq<seq<T>>)
    requires forall i | 0 <= i < |arrays| :: |arrays[i]| == 0
    ensures Flatten(arrays) == [] && TotalLength(arrays) == 0
  {
    FlattenLength(arrays);
    if |arrays| > 0 {
      ConcatOfNothing(arrays[..|arrays| - 1]);
    }
  }
}

=== FILE: token.dfy ===
/**
 * Source positions of pkg/river/token/file.go.
 *
 * A `File` keeps the byte offset at which each line starts. Its invariant
 * (`Valid`): the first line starts at offset 0 and line starts strictly
 * increase. `PositionFor` turns a byte offset into a 1-based line and
 * column by finding the last line start at or before the offset.
 */
module Token {
  import opened Wrappers

  /** The identity of a File allocation: a Pos refers to its File by pointer. */
  type FileRef = nat

  datatype File = File(ref: FileRef, filename: string, lines: seq<int>)

  /** A compact position: a file pointer (nil is `None`) and a byte offset. */
  datatype Pos = Pos(file: Option<FileRef>, off: int)

  /** The zero Pos. */
  const NoPos: Pos := Pos(None, 0)

  /** Full position information; the zero value has every field zero. */
  datatype Position = Position(filename: string, offset: int, line: int, column: int)

  const ZeroPosition: Position := Position("", 0, 0, 0)

  predicate StrictlyIncreasing(a: seq<int>) {
    forall i, j | 0 <= i < j < |a| :: a[i] < a[j]
  }

  /** What sort.Search needs of the line table: the predicate `a[i] > x` must be monotone in `i`. */
  predicate Sorted(a: seq<int>) {
    forall i, j | 0 <= i <= j < |a| :: a[i] <= a[j]
  }

  /** The File invariant: line 1 starts at offset 0 and line starts strictly increase. */
  predicate Valid(f: File) {
    |f.lines| > 0 && f.lines[0] == 0 && StrictlyIncreasing(f.lines)
  }

  // ---------------------------------------------------------------------------
  // Pos

  /** `Pos.Offset`: the byte offset the Pos carries; the zero Pos has offset 0. */
  function Offset(p: Pos): (o: int)
    ensures o == p.off
    ensures p == NoPos ==> o == 0
  {
    p.off
  }

  /** `Pos.IsValid`: any Pos other than the zero one. */
  function IsValid(p: Pos): (b: bool)
    ensures b <==> p.file.Some? || p.off != 0
  {
    p != NoPos
  }

  /** `Pos.Add`: same file, offset moved by `n`. */
  function Add(p: Pos, n: int): (q: Pos)
    ensures q.file == p.file
    ensures Offset(q) - Offset(p) == n
  {
    Pos(p.file, p.off + n)
  }

  // ---------------------------------------------------------------------------
  // File

  /** `NewFile`: a file with one line, starting at offset 0. */
  function NewFile(ref: FileRef, filename: string): (f: File)
    ensures Valid(f) && |f.lines| == 1
    ensures f.ref == ref && f.filename == filename
  {
    File(ref, filename, [0])
  }

  /** `File.Pos`: offsets must not be negative (the source panics on one). */
  function FilePos(f: File, off: int): (p: Pos)
    requires off >= 0
    ensures p.file == Some(f.ref) && Offset(p) == off
    ensures IsValid(p)
  {
    Pos(Some(f.ref), off)
  }

  /**
   * `File.AddLine`: an offset is recorded only if it lies beyond the last
   * line start; otherwise the file is unchanged.
   */
  function AddLine(f: File, offset: int): (g: File)
    ensures g.ref == f.ref && g.filename == f.filename
    ensures f.lines <= g.lines && |g.lines| <= |f.lines| + 1
    ensures |g.lines| == |f.lines| + 1 <==> |f.lines| == 0 || f.lines[|f.lines| - 1] < offset
    ensures |g.lines| == |f.lines| + 1 ==> g.lines[|f.lines|] == offset
    ensures Valid(f) ==> Valid(g)
  {
    var n := |f.lines|;
    if n == 0 || f.lines[n - 1] < offset then File(f.ref, f.filename, f.lines + [offset]) else f
  }

  /** Recording a sequence of line starts, as the scanner does. */
  function AddLines(f: File, offsets: seq<int>): File
    decreases |offsets|
  {
    if |offsets| == 0 then f else AddLines(AddLine(f, offsets[0]), offsets[1..])
  }

  /** Whatever offsets the scanner reports, in whatever order, a new file stays valid. */
  lemma {:induction false} AddLinesKeepValid(f: File, offsets: seq<int>)
    requires Valid(f)
    ensures Valid(AddLines(f, offsets))
    ensures AddLines(f, offsets).filename == f.filename && AddLines(f, offsets).ref == f.ref
    decreases |offsets|
  {
    if |offsets| > 0 {
      AddLinesKeepValid(AddLine(f, offsets[0]), offsets[1..]);
    }
  }

  /** Offsets that arrive already increasing are all recorded. */
  lemma {:induction false} AddLinesIncreasing(f: File, offsets: seq<int>)
    requires Valid(f)
    requires StrictlyIncreasing(offsets)
    requires |offsets| > 0 ==> f.lines[|f.lines| - 1] < offsets[0]
    ensures AddLines(f, offsets).lines == f.lines + offsets
    decreases |offsets|
  {
    if |offsets| > 0 {
      var g := AddLine(f, offsets[0]);
      AddLinesIncreasing(g, offsets[1..]);
      assert f.lines + offsets == g.lines + offsets[1..];
    }
  }

  // ---------------------------------------------------------------------------
  // Line lookup

  /**
   * `searchInts`, i.e. `sort.Search(len(a), func(i) { a[i] > x }) - 1` with
   * sort.Search's binary search written out: the index of the last element
   * at most `x`, or -1 if there is none.
   */
  method SearchInts(a: seq<int>, x: int) returns (r: int)
    requires Sorted(a)
    ensures -1 <= r < |a|
    ensures forall j | 0 <= j <= r :: a[j] <= x
    ensures forall j | r < j < |a| :: a[j] > x
  {
    var lo, hi := 0, |a|;
    while lo < hi
      invariant 0 <= lo <= hi <= |a|
      invariant forall j | 0 <= j < lo :: a[j] <= x
      invariant forall j | hi <= j < |a| :: a[j] > x
      decreases hi - lo
    {
      var h := (lo + hi) / 2;
      if !(a[h] > x) {
        lo := h + 1;
      } else {
        hi := h;
      }
    }
    r := lo - 1;
  }

  /**
   * `File.PositionFor`. The zero Pos gives the zero Position. Otherwise the
   * line is the last line starting at or before the offset and the column
   * counts from 1 at that line start; an offset before the first line start
   * (a negative one) gets line and column 0.
   */
  method PositionFor(f: File, p: Pos) returns (pos: Position)
    requires Valid(f)
    ensures p == NoPos ==> pos == ZeroPosition
    ensures p != NoPos ==> pos.filename == f.filename && pos.offset == p.off
    ensures p != NoPos && p.off >= 0 ==>
      && 1 <= pos.line <= |f.lines| && pos.column >= 1
      && f.lines[pos.line - 1] + (pos.column - 1) == p.off
      && (pos.line < |f.lines| ==> p.off < f.lines[pos.line])
    ensures p != NoPos && p.off < 0 ==> pos.line == 0 && pos.column == 0
    ensures PositionIsValid(pos) <==> p != NoPos && p.off >= 0
  {
    if p == NoPos {
      return ZeroPosition;
    }
    var line, column := 0, 0;
    var i := SearchInts(f.lines, p.off);
    if i >= 0 {
      line, column := i + 1, p.off - f.lines[i] + 1;
    }
    return Position(f.filename, p.off, line, column);
  }

  /**
   * `Pos.Position`: the lookup through the Pos's own file pointer, `f` being
   * the File it points to. With a nil pointer only the zero Pos has a
   * position; any other offset dereferences nil, which panics (`None`).
   */
  method PosPosition(p: Pos, f: Option<File>) returns (r: Option<Position>)
    requires f.Some? <==> p.file.Some?
    requires f.Some? ==> f.value.ref == p.file.value && Valid(f.value)
    ensures r.None? <==> p.file.None? && p.off != 0
    ensures p == NoPos ==> r == Some(ZeroPosition)
    ensures p.file.Some? ==> r.Some? && r.value.filename == f.value.filename && r.value.offset == p.off
    ensures p.file.Some? && p.off >= 0 ==>
      && 1 <= r.value.line <= |f.value.lines|
      && f.value.lines[r.value.line - 1] + (r.value.column - 1) == p.off
  {
    if p == NoPos {
      return Some(ZeroPosition);
    }
    if f.None? {
      return None;
    }
    var pos := PositionFor(f.value, p);
    return Some(pos);
  }

  /**
   * Moving a Pos forward by `n` without passing a line start keeps it on its
   * line and moves its column by exactly `n`.
   */
  method AddWithinLine(f: File, p: Pos, n: int) returns (before: Position, after: Position)
    requires Valid(f) && p.file == Some(f.ref) && p.off >= 0 && n >= 0
    requires forall j | 0 <= j < |f.lines| :: f.lines[j] <= p.off || p.off + n < f.lines[j]
    ensures before.line >= 1 && after.line == before.line
    ensures after.column == before.column + n
    ensures after.offset == before.offset + n
  {
    before := PositionFor(f, p);
    after := PositionFor(f, Add(p, n));
  }

  // ---------------------------------------------------------------------------
  // Rendering

  /** `Position.IsValid`: a line number of at least 1; the zero Position is not valid. */
  function PositionIsValid(pos: Position): (v: bool)
    ensures v <==> pos.line >= 1
    ensures pos == ZeroPosition ==> !v
  {
    pos.line >= 1
  }

  function DigitChar(d: nat): char
    requires d < 10
  {
    "0123456789"[d]
  }

  /** The decimal digits of `n`, most significant first, without leading zeros. */
  function Digits(n: nat): (s: string)
    ensures |s| > 0
    ensures forall c | c in s :: '0' <= c <= '9'
    ensures s[0] == '0' ==> n == 0
    decreases n
  {
    if n < 10 then [DigitChar(n)] else Digits(n / 10) + [DigitChar(n % 10)]
  }

  /** `fmt.Sprintf("%d", n)` */
  function Decimal(n: int): (s: string)
    ensures |s| > 0 && ':' !in s
  {
    if n < 0 then "-" + Digits(-n) else Digits(n)
  }

  /**
   * `Position.String`, in one of six forms: `file:line:column`,
   * `file:line`, `line:column`, `line`, `file`, or `-`.
   */
  function PositionString(pos: Position): (s: string)
    ensures |s| > 0
    ensures pos.filename <= s
    ensures !PositionIsValid(pos) ==> s == (if pos.filename == "" then "-" else pos.filename)
    ensures PositionIsValid(pos) && pos.filename != "" && pos.column != 0 ==>
      s == pos.filename + ":" + Decimal(pos.line) + ":" + Decimal(pos.column)
    ensures PositionIsValid(pos) && pos.filename != "" && pos.column == 0 ==>
      s == pos.filename + ":" + Decimal(pos.line)
    ensures PositionIsValid(pos) && pos.filename == "" && pos.column != 0 ==>
      s == Decimal(pos.line) + ":" + Decimal(pos.column)
    ensures PositionIsValid(pos) && pos.filename == "" && pos.column == 0 ==>
      s == Decimal(pos.line)
  {
    var s := pos.filename;
    var s := if PositionIsValid(pos) then
        (if s != "" then s + ":" else s) + Decimal(pos.line) + (if pos.column != 0 then ":" + Decimal(pos.column) else "")
      else s;
    if s == "" then "-" else s
  }

  // Reading a rendered position back, to show that nothing is lost.

  function DigitValue(c: char): nat {
    if '0' <= c <= '9' then (c - '0') as nat else 0
  }

  /** The value of a string of decimal digits. */
  function ParseDigits(s: string): nat
    decreases |s|
  {
    if |s| == 0 then 0 else ParseDigits(s[..|s| - 1]) * 10 + DigitValue(s[|s| - 1])
  }

  function ParseDecimal(s: string): int {
    if |s| > 0 && s[0] == '-' then -(ParseDigits(s[1..]) as int) else ParseDigits(s)
  }

  lemma {:induction false} ParseDigitsOfDigits(n: nat)
    ensures ParseDigits(Digits(n)) == n
    decreases n
  {
    if n >= 10 {
      var s := Digits(n);
      assert s[..|s| - 1] == Digits(n / 10);
      ParseDigitsOfDigits(n / 10);
    }
  }

  /** Decimal formatting is undone by parsing. */
  lemma DecimalRoundTrip(n: int)
    ensures ParseDecimal(Decimal(n)) == n
  {
    if n < 0 {
      var s := Digits(-n);
      var t := "-" + s;
      assert Decimal(n) == t;
      assert t[0] == '-' && t[1..] == s;
      ParseDigitsOfDigits(-n);
      assert ParseDecimal(t) == -(ParseDigits(s) as int);
    } else {
      var s := Digits(n);
      assert Decimal(n) == s;
      assert s[0] in s;
      assert s[0] != '-';
      ParseDigitsOfDigits(n);
      assert ParseDecimal(s) == ParseDigits(s);
    }
  }

  /** Split at the last ':' of `s`, if there is one. */
  function SplitLast(s: string): (r: Option<(string, string)>)
    decreases |s|
  {
    if |s| == 0 then None
    else if s[|s| - 1] == ':' then Some((s[..|s| - 1], ""))
    else match SplitLast(s[..|s| - 1])
      case None => None
      case Some((a, b)) => Some((a, b + [s[|s| - 1]]))
  }

  lemma {:induction false} SplitLastNoColon(b: string)
    requires ':' !in b
    ensures SplitLast(b) == None
    decreases |b|
  {
    if |b| > 0 {
      SplitLastNoColon(b[..|b| - 1]);
    }
  }

  lemma {:induction false} SplitLastAt(a: string, b: string)
    requires ':' !in b
    ensures SplitLast(a + ":" + b) == Some((a, b))
    decreases |b|
  {
    var s := a + ":" + b;
    if |b| == 0 {
      assert s[..|s| - 1] == a;
    } else {
      var b' := b[..|b| - 1];
      assert s[..|s| - 1] == a + ":" + b';
      SplitLastAt(a, b');
      assert b' + [s[|s| - 1]] == b;
    }
  }

  /** Reads `file:line:column` or `line:column` back into its parts. */
  function ParsePosition(s: string): Option<(string, int, int)> {
    match SplitLast(s)
    case None => None
    case Some((rest, col)) =>
      match SplitLast(rest)
      case None => Some(("", ParseDecimal(rest), ParseDecimal(col)))
      case Some((file, line)) => Some((file, ParseDecimal(line), ParseDecimal(col)))
  }

  /**
   * A valid position with a column renders to a string from which its
   * filename, line and column are recovered, whatever the filename holds.
   */
  lemma PositionStringRoundTrip(pos: Position)
    requires PositionIsValid(pos) && pos.column != 0
    ensures ParsePosition(PositionString(pos)) == Some((pos.filename, pos.line, pos.column))
  {
    var line, col := Decimal(pos.line), Decimal(pos.column);
    DecimalRoundTrip(pos.line);
    DecimalRoundTrip(pos.column);
    if pos.filename == "" {
      assert PositionString(pos) == line + ":" + col;
      SplitLastAt(line, col);
      SplitLastNoColon(line);
    } else {
      assert PositionString(pos) == (pos.filename + ":" + line) + ":" + col;
      SplitLastAt(pos.filename + ":" + line, col);
      SplitLastAt(pos.filename, line);
    }
  }

  /**
   * Without a column there is no column suffix: the line alone after the
   * filename and its ':', or the line alone when there is no filename.
   */
  lemma PositionStringWithoutColumn(pos: Position)
    requires PositionIsValid(pos) && pos.column == 0
    ensures pos.filename == "" ==> ':' !in PositionString(pos) && ParseDecimal(PositionString(pos)) == pos.line
    ensures pos.filename != "" ==> SplitLast(PositionString(pos)) == Some((pos.filename, Decimal(pos.line)))
  {
    DecimalRoundTrip(pos.line);
    if pos.filename != "" {
      assert PositionString(pos) == pos.filename + ":" + Decimal(pos.line);
      SplitLastAt(pos.filename, Decimal(pos.line));
    } else {
      assert PositionString(pos) == Decimal(pos.line);
    }
  }
}

=== FILE: unwrap.dfy ===
/**
 * Pointer and interface unwrapping (`unwrapPointer` in
 * pkg/river/vm/internal/ctyencode/encode.go): follow pointers and interfaces
 * until a value that is neither, or stop at the first nil.
 */
module Unwrap {
  import opened Wrappers
  import opened Values

  /**
   * reflect's read-only flag on a value. A value reached through an
   * unexported struct field carries one, and `Interface()` refuses it:
   *
   * - `StickyRO` for an ordinary unexported field; every later step keeps it;
   * - `EmbedRO` for an unexported embedded field (`struct{ inner }`);
   *   dereferencing a pointer keeps it, indexing, a map lookup or unwrapping
   *   an interface turns it into `StickyRO`, and the next field access
   *   drops it.
   */
  datatype ReadOnly = Writable | EmbedRO | StickyRO

  /**
   * The flag after an index, a map lookup or unwrapping an interface: any
   * read-only flag becomes sticky.
   */
  function Sticky(ro: ReadOnly): (r: ReadOnly)
    ensures r.Writable? <==> ro.Writable?
    ensures !r.EmbedRO?
  {
    if ro.Writable? then Writable else StickyRO
  }

  /** The value unwrapping reached, and reflect's addressable and read-only flags on it. */
  datatype Reached = Reached(value: Native, addressable: bool, readOnly: ReadOnly)

  /** Number of non-nil indirections in front of `n`. */
  function Depth(n: Native): nat {
    match n
    case GoPtr(Some(x)) => 1 + Depth(x)
    case GoIface(Some(x)) => 1 + Depth(x)
    case _ => 0
  }

  /** Some pointer or interface on the indirection chain of `n` is nil. */
  predicate NilInChain(n: Native) {
    match n
    case GoPtr(None) => true
    case GoIface(None) => true
    case GoPtr(Some(x)) => NilInChain(x)
    case GoIface(Some(x)) => NilInChain(x)
    case _ => false
  }

  /** Some interface sits on the non-nil part of the indirection chain of `n`. */
  predicate InterfaceInChain(n: Native) {
    match n
    case GoPtr(Some(x)) => InterfaceInChain(x)
    case GoIface(Some(x)) => true
    case _ => false
  }

  /**
   * The last pointer or interface on the indirection chain of `n`: the one
   * whose element is the value unwrapping stops at.
   */
  function LastIndirection(n: Native): (r: Native)
    requires !Direct(n) && !NilInChain(n)
    ensures r.GoPtr? || r.GoIface?
  {
    var x := n.elem.value;
    if Direct(x) then n else LastIndirection(x)
  }

  /**
   * Reference definition of unwrapping. Dereferencing a pointer yields an
   * addressable value and keeps the read-only flag; the value held by an
   * interface is not addressable, and its read-only flag is sticky.
   */
  function Unwrapped(n: Native, addr: bool, ro: ReadOnly): (r: Option<Reached>)
    ensures r.None? <==> NilInChain(n)
    ensures r.Some? ==> Direct(r.value.value)
    ensures Direct(n) ==> r == Some(Reached(n, addr, ro))
    ensures r.Some? && !Direct(n) ==> r.value.addressable == LastIndirection(n).GoPtr?
    ensures r.Some? ==> r.value.readOnly == if InterfaceInChain(n) then Sticky(ro) else ro
  {
    match n
    case GoPtr(None) => None
    case GoIface(None) => None
    case GoPtr(Some(x)) => Unwrapped(x, true, ro)
    case GoIface(Some(x)) => Unwrapped(x, false, Sticky(ro))
    case _ => Some(Reached(n, addr, ro))
  }

  /**
   * The loop of `unwrapPointer`. It takes at most `Depth(val)` steps, gives
   * up as soon as it meets a nil, and otherwise returns the first value that
   * is neither a pointer nor an interface.
   */
  method UnwrapPointer(val: Native, addr: bool, ro: ReadOnly) returns (r: Option<Reached>, steps: nat)
    ensures steps <= Depth(val)
    ensures r.None? <==> NilInChain(val)
    ensures r.Some? ==> Direct(r.value.value) && steps == Depth(val)
    ensures r == Unwrapped(val, addr, ro)
  {
    var cur := val;
    var a := addr;
    var f := ro;
    steps := 0;
    while cur.GoPtr? || cur.GoIface?
      invariant steps + Depth(cur) == Depth(val)
      invariant NilInChain(cur) == NilInChain(val)
      invariant Unwrapped(cur, a, f) == Unwrapped(val, addr, ro)
      decreases Depth(cur)
    {
      if cur.elem.None? {
        return None, steps;
      }
      a := cur.GoPtr?;
      if cur.GoIface? {
        f := Sticky(f);
      }
      cur := cur.elem.value;
      steps := steps + 1;
    }
    return Some(Reached(cur, a, f)), steps;
  }
}

=== FILE: values.dfy ===
/**
 * The two value worlds the encoder connects.
 *
 * - `Native` is a reflected Go value, classified by its reflect kind.
 * - `Ty` is a cty target type and `TVal` a cty value; every type has its own
 *   null, `Null(ty)`, which is a value and not the absence of one.
 *
 * A cty value can itself be held by a Go struct (`cty.Value` is a Go struct),
 * and a capsule value holds a Go value, so `Native` and `TVal` refer to each
 * other and live in one module.
 */
module Values {
  import opened Wrappers

  /** cty target types. A capsule is identified by the name of the Go type it encapsulates. */
  datatype Ty =
    | Bool
    | Number
    | String
    | Dynamic
    | List(elem: Ty)
    | Map(elem: Ty)
    | Set(elem: Ty)
    | Object(attrs: map<string, Ty>)
    | Tuple(elems: seq<Ty>)
    | Capsule(encapsulated: string)

  /**
   * cty numbers. Go integers of every width, unsigned integers and big.Int
   * values are exact; floating-point values are kept as an opaque
   * representation, because the model makes no precision claims about them.
   */
  datatype Num = Whole(i: int) | Inexact(repr: nat)

  /**
   * cty values. Collections record the element type they were built for.
   * Strings and map keys are kept as given, and a set merges only identical
   * values: cty's Unicode normalisation of strings and its value equality on
   * numbers are not modelled.
   */
  datatype TVal =
    | Null(ty: Ty)
    | BoolVal(b: bool)
    | NumberVal(n: Num)
    | StringVal(s: string)
    | ListVal(elemTy: Ty, elems: seq<TVal>)
    | MapVal(elemTy: Ty, entries: map<string, TVal>)
    | SetVal(elemTy: Ty, members: set<TVal>)
    | ObjectVal(attrs: map<string, TVal>)
    | TupleVal(items: seq<TVal>)
    | CapsuleVal(capsule: Ty, payload: Native)

  /** The reflect kinds the encoder distinguishes (used in error causes). */
  datatype Kind =
    | BoolKind | IntKind | UintKind | FloatKind | StringKind
    | SliceKind | ArrayKind | MapKind | StructKind | PtrKind | InterfaceKind
    | OtherKind(name: string)

  /**
   * A reflected Go value.
   *
   * - `GoPtr` and `GoIface` are the two kinds of indirection; `None` is nil.
   * - `GoInt` stands for the signed integer kinds (int, int8 to int64) and
   *   `GoUint` for uint and uint8 to uint64. A `uintptr` is not among the
   *   kinds the number handler accepts, so it is a `GoOther`.
   * - `GoFloat` stands for float32 and float64: `repr` is an opaque
   *   representation and `nan` marks a NaN.
   * - A nil slice is `GoSlice(true, [])`; a Go array has no nil state.
   * - `GoMap` records the kind of its key type, and `definedKey` tells
   *   whether that type is a type defined on top of its kind (`type K
   *   string`) rather than the predeclared type itself. When the key kind is
   *   not string, `entries` only stands for the map's size.
   * - `GoStruct` lists its fields in declaration order; `unexported` holds the
   *   indices of the fields that are not exported, and `embedded` those of
   *   the fields declared by their type alone (`struct{ inner }`); `tags` is what the
   *   struct-tag resolver reports for its type: attribute name to field index.
   *   `special` marks the struct types the encoder recognises by identity.
   */
  datatype Native =
    | GoPtr(elem: Option<Native>)
    | GoIface(elem: Option<Native>)
    | GoBool(b: bool)
    | GoInt(i: int)
    | GoUint(u: nat)
    | GoFloat(repr: nat, nan: bool)
    | GoString(s: string)
    | GoSlice(isNil: bool, elems: seq<Native>)
    | GoArray(elems: seq<Native>)
    | GoMap(keyKind: Kind, definedKey: bool, isNil: bool, entries: map<string, Native>)
    | GoStruct(fields: seq<Native>, unexported: set<nat>, embedded: set<nat>, tags: map<string, nat>, special: Special)
    | GoOther(kind: string)

  /**
   * Struct types with a meaning of their own: big.Int, big.Float, cty's
   * set.Set and cty.Value. The values of a set.Set are reflected one by one
   * from interface values, which never yields an interface kind, so a
   * `GoIface` among them stands for no Go value.
   */
  datatype Special =
    | Plain
    | BigInt(i: int)
    | BigFloat(repr: nat)
    | SetOf(values: seq<Native>)
    | CtyValue(v: TVal)

  /** reflect.Value.Kind */
  function KindOf(n: Native): Kind {
    match n
    case GoPtr(_) => PtrKind
    case GoIface(_) => InterfaceKind
    case GoBool(_) => BoolKind
    case GoInt(_) => IntKind
    case GoUint(_) => UintKind
    case GoFloat(_, _) => FloatKind
    case GoString(_) => StringKind
    case GoSlice(_, _) => SliceKind
    case GoArray(_) => ArrayKind
    case GoMap(_, _, _, _) => MapKind
    case GoStruct(_, _, _, _, _) => StructKind
    case GoOther(k) => OtherKind(k)
  }

  /** A value that is neither a pointer nor an interface. */
  predicate Direct(n: Native) {
    !n.GoPtr? && !n.GoIface?
  }

  /** A Go value whose static type is cty.Value itself. */
  predicate IsCtyValue(n: Native) {
    n.GoStruct? && n.special.CtyValue?
  }

  /**
   * The cty invariant: a value inhabits the type it claims. Every value
   * inhabits `Dynamic`; a null inhabits exactly its own type.
   */
  ghost predicate Conforms(v: TVal, ty: Ty)
    decreases v
  {
    ty.Dynamic? ||
    match v
    case Null(t) => t == ty
    case BoolVal(_) => ty.Bool?
    case NumberVal(_) => ty.Number?
    case StringVal(_) => ty.String?
    case ListVal(ety, elems) =>
      ty == List(ety) && forall i | 0 <= i < |elems| :: Conforms(elems[i], ety)
    case MapVal(ety, entries) =>
      ty == Map(ety) && forall k | k in entries :: Conforms(entries[k], ety)
    case SetVal(ety, members) =>
      ty == Set(ety) && forall m | m in members :: Conforms(m, ety)
    case ObjectVal(attrs) =>
      ty.Object? && attrs.Keys == ty.attrs.Keys &&
      forall k | k in attrs :: Conforms(attrs[k], ty.attrs[k])
    case TupleVal(items) =>
      ty.Tuple? && |items| == |ty.elems| &&
      forall i | 0 <= i < |items| :: Conforms(items[i], ty.elems[i])
    case CapsuleVal(c, _) => c == ty
  }
}

=== FILE: wrappers.dfy ===
/** The optional-value and result datatypes shared by the whole model. */
module Wrappers {

  /** An optional value: Go's nil pointer or nil interface is `None`. */
  datatype Option<+T> = None | Some(value: T)

  /** Either a computed value or the error that aborted the computation. */
  datatype Result<+R, +E> = Success(value: R) | Failure(error: E)
}
